=== FILE: README.md ===
# Quantum Tank simulation core in Dafny

This project models the simulation core of Quantum Tank, a browser arcade
shooter. The player's tank survives homing enemies, fires bullets and
accrues score. The model covers:

- the per-frame world update `updateGame`: the "superhot" time scale,
  player movement with clamping and aiming, the enemy spawn accumulator,
  enemy pursuit, bullet and particle integration and culling, screen-shake
  decay, bullet-versus-enemy resolution with score and particle bursts, and
  the enemy-versus-player game-over test;
- the shot handler `handleShoot` with its fire-rate gate;
- `startGame`, `restartGame` and the high-score rule;
- the `INITIAL_STATE` record and the records of `src/game/GameState.ts`;
- the keyboard hook's held-key set and its `updateMovement` direction
  vector.

Modules follow the program's structure:

| module | file | models |
|---|---|---|
| `Geometry` | geometry.dfy | `Vector2`, clamping, the strict-overlap test `distance < r1 + r2` |
| `Sequences` | sequences.dfy | `Array.prototype.filter` |
| `GameModel` | game_state.dfy | `src/game/GameState.ts` |
| `Keyboard` | keyboard.dfy | `src/hooks/useKeyboardInput.ts` |
| `Combat` | combat.dfy | the two collision loops of `updateGame` |
| `Simulation` | simulation.dfy | `updateGame`, `handleShoot`, `startGame`, `restartGame`, the high-score effect, and sequences of these events |

Coordinates are `real`. The model abstracts the program's environment as
follows:

- **Randomness.** Every frame and every shot receives `dice: nat -> real`.
  This gives the `Math.random()` results in the order the code draws them.
- **Trigonometry.** `Math.atan2`, `Math.cos` and `Math.sin` are the
  uninterpreted functions of a `Trig` value.
- **Keyboard square root.** The `Math.sqrt` in the keyboard hook is a
  parameter.
- **Distance tests.** Each `Math.sqrt(d) < r` in `updateGame` is replaced
  by the equivalent `0 < r && d < r * r`.
- **Screen size.** The arena size is a parameter.
- **Clock.** `Date.now()` is the `now` argument of a shot.

`Simulation.Session` pairs the world with two pieces of App state that
live outside it:

- the spawn accumulator `lastSpawnTimeRef`;
- the App-level high score.

The world's own `highScore` field is never written by the code.

Behaviour of the code worth noting:

- **Multi-kill.** A bullet's `active` flag is only checked before the inner
  enemy loop. One bullet can therefore destroy every live enemy it
  overlaps in that frame. It does not stop after the first hit.
- **Spawn accumulator.** When the spawn accumulator passes 1500 it is set
  to 0 and the surplus is dropped. `restartGame` does not reset it.
- **Start.** `startGame` only sets `gameStarted`. It neither resets the
  world nor centres the player.
- **Fixed tuning.** There is no level policy, enemy health above 1,
  powerup, debris or damage text. Speeds, fire rate and spawn interval are
  the fixed constants of `src/App.tsx:26-30`.

## Model

| member | source | states |
|---|---|---|
| Geometry.Clamp | src/App.tsx:145-146 | the result is never below the lower bound, is at most the upper bound when the bounds are ordered, equals the input inside the bounds, the nearer bound outside them, and the lower bound when the bounds cross |
| Geometry.WithinIsDistance | src/App.tsx:228-231 | the squared-distance test `0 < r && d < r * r` holds exactly when the Euclidean distance is below r, so it agrees with the source's `Math.sqrt(d) < r` |
| Sequences.Filter | src/App.tsx:269-270 | every kept element satisfies the predicate and comes from the input, every input element satisfying it is kept, the result is never longer, and a sequence whose every element passes is returned unchanged |
| Sequences.FilterAppend | src/App.tsx:269-270 | filtering a concatenation is concatenating the filtered parts, so filtering respects the order of the input |
| GameModel.Initial | src/game/GameState.ts:73-105 | the initial world has every entity collection empty, shake (0,0), score 0, high score 0, level 1, not over and not started; the player is active with radius 15, velocity (0, 0), rotation and turret rotation 0, health = maxHealth = 100 and all timers 0 |
| Keyboard.Press | src/hooks/useKeyboardInput.ts:11-14 | keydown adds the key code and leaves membership of every other code unchanged |
| Keyboard.Release | src/hooks/useKeyboardInput.ts:16-19 | keyup removes the key code and leaves membership of every other code unchanged |
| Keyboard.Axis | src/hooks/useKeyboardInput.ts:25-28 | each axis before normalisation is in {-1, 0, 1}; it is 0 exactly when both or neither direction is held, negative exactly when only the negative one is |
| Keyboard.Movement | src/hooks/useKeyboardInput.ts:21-38 | for any square root, x is negative iff only left is held, positive iff only right is held, y negative iff only up is held, positive iff only down is held |
| Keyboard.NoKeysNoMovement | src/hooks/useKeyboardInput.ts:22-23 | holding no movement key yields (0, 0) |
| Keyboard.OpposingKeysCancel | src/hooks/useKeyboardInput.ts:25-28 | up with down gives y = 0; left with right gives x = 0 |
| Keyboard.MovementIsUnit | src/hooks/useKeyboardInput.ts:31-35 | with a square root correct on 0, 1 and 2, the vector is (0, 0) or has length exactly 1 |
| Keyboard.SameDirectionsSameMovement | src/hooks/useKeyboardInput.ts:25-28 | the vector depends only on which of the four directions are held, so both aliases of one direction count once |
| Keyboard.OtherKeysIgnored | src/hooks/useKeyboardInput.ts:11-19 | pressing or releasing a key that is not a movement key leaves the vector unchanged |
| Combat.Burst | src/App.tsx:236-248 | a kill emits exactly 8 particles, all at the enemy's position with life and maxLife 1 |
| Combat.SweepEnemies | src/App.tsx:226-253 | one bullet's pass over the enemies deactivates exactly the live enemies it overlaps, reports a hit iff there was one, and changes no score, particle or shake when there was none |
| Combat.SweepAccounting | src/App.tsx:226-253 | one bullet's pass never revives an enemy; score rises by 100 and particles by 8 per enemy it deactivates; particles stay with positive life |
| Combat.SweepQuiet | src/App.tsx:226-253 | one bullet's pass never lowers the score, and one that scores nothing leaves the screen shake as it was |
| Combat.Barrage | src/App.tsx:224-254 | the bullet pass keeps both collections' lengths and bullet positions, and never reactivates a bullet |
| Combat.BarrageAccounting | src/App.tsx:224-254 | over all bullets: the live enemy count never grows, score rises by exactly 100 and particles by 8 per enemy deactivated |
| Combat.BarrageQuiet | src/App.tsx:224-254 | the bullet pass never lowers the score, and a pass that scores nothing leaves the screen shake as it was |
| Combat.BarrageWrecks | src/App.tsx:224-254 | an enemy ends the pass deactivated exactly when it was live and some bullet live on its turn overlapped it; otherwise it is unchanged |
| Combat.BarrageSpends | src/App.tsx:224-254 | a bullet ends the pass deactivated exactly when it was live and overlapped an enemy still live when its turn came; otherwise it is unchanged |
| Combat.WreckedCount | src/App.tsx:227 | destroyed enemies are counted once each: the live count drops by exactly the number of live enemies shot down |
| Combat.BarrageScore | src/App.tsx:234 | the score after the pass is the score before plus 100 per live enemy shot down, so it never decreases |
| Combat.OneBulletManyKills | src/App.tsx:225-233 | a live bullet overlapping two live enemies destroys both and earns 200 |
| Combat.Contact | src/App.tsx:257-267 | the game is over after the enemy pass iff it already was or some live enemy strictly overlaps the player; with no overlap nothing changes |
| Combat.ContactSurvivors | src/App.tsx:257-269 | some live enemy in the list touches the player iff some enemy of the filtered survivor list does |
| Simulation.Steering | src/App.tsx:117-120 | each axis of the combined input is the joystick's when that is non-zero and the keyboard's otherwise; Simulation.TickPlayer carries this input into the frame's player movement |
| Simulation.ScaledDelta | src/App.tsx:122-128 | the frame's delta is used unchanged when the frame is active (input magnitude above 0.1, mouse held or a bullet in flight) and is multiplied by 0.05 otherwise; Simulation.ScaledDeltaIsProduct equates it with deltaTime times the time scale |
| Simulation.ScaledDeltaIsProduct | src/App.tsx:126-128 | the scaled delta is deltaTime times the time scale |
| Simulation.MovePlayer | src/App.tsx:132-146 | only position and rotation change; on each axis the position is the unclamped target when that lies in [20, size-20], 20 when the target is below 20 or the arena is narrower than 40, and size-20 when the target is above size-20; with the mouse away from (0, 0) the rotation aims from the unclamped target at it; with the mouse at (0, 0) and input magnitude above 0.1 it is the heading of the input; with neither it is kept |
| Simulation.SpawnEnemy | src/App.tsx:150-173 | the accumulator gains the scaled delta; when it exceeds 1500 it is reset to 0 and exactly one active enemy with health 1, radius 15 and zero velocity is appended; otherwise the enemies are unchanged |
| Simulation.EdgeInRange | src/App.tsx:153 | `floor(random * 4)` is an edge in 0..3 |
| Simulation.SpawnsOffEdge | src/App.tsx:153-160 | with random values in [0, 1), a spawned enemy lies 50 units outside one arena edge and within that edge's span |
| Simulation.Chase | src/App.tsx:176-189 | an enemy step changes only its position and turns it to face the clamped player position; with a zero scaled delta it does not move |
| Simulation.ChaseStride | src/App.tsx:179-186 | when cos and sin of the heading lie on the unit circle, the enemy's step has length exactly 0.2 times the scaled delta |
| Simulation.ChaseAll | src/App.tsx:176-189 | every enemy, in order, takes its own chase step toward the clamped player position, and nothing but position and rotation changes |
| Simulation.DriftAll | src/App.tsx:192-197 | every bullet, in order, moves by its velocity times the scaled delta and keeps every other field; Simulation.TickBullets lifts this to the bullets left after a whole frame |
| Simulation.SettleAxis | src/App.tsx:218-221 | a shake component either becomes 0.9 times its value or snaps to 0, and it snaps exactly when 0.9 times its value has magnitude below 0.1 |
| Simulation.ShakeDiesOut | src/App.tsx:218-221 | a shake component of magnitude below n/100 is exactly 0 after n settling steps, so after n frames without a kill or a contact (Simulation.TickShake makes such a frame one settling step) |
| Simulation.Tick | src/App.tsx:113-287 | a frame is a no-op unless started and not over; otherwise it keeps level, walls, power-ups, debris, damage texts, the movement flag, the world high score and every player field but position and rotation, and leaves the player in bounds |
| Simulation.TickTidy | src/App.tsx:198-201 | after a frame every enemy and bullet is active, every bullet is strictly inside the arena and every particle has positive life |
| Simulation.TickGameOver | src/App.tsx:257-285 | after a frame the game is over iff some surviving enemy strictly overlaps the clamped player position |
| Simulation.TickScore | src/App.tsx:214-234 | a frame never lowers the score, and from a settled world raises it by exactly 100 per enemy destroyed by bullets |
| Simulation.TickShake | src/App.tsx:214-221 | a frame in which the score does not rise and no enemy reaches the player leaves the shake exactly one settling step (0.9 times, or 0 below 0.1) from where it was |
| Simulation.TickSpawn | src/App.tsx:150-152 | either the accumulator resets to 0 and at most one enemy is added, or it advances by the scaled delta and the enemy count does not grow |
| Simulation.TickPlayer | src/App.tsx:128-146 | the player after a frame is the movement of the combined input over deltaTime times the time scale |
| Simulation.TickEnemies | src/App.tsx:176-189 | every enemy left after a frame is an enemy of the frame, old or just spawned, after one chase step toward the player's new position over the scaled delta, so idle frames slow enemies to 0.05 of their speed just as they slow the player |
| Simulation.TickBullets | src/App.tsx:192-201 | every bullet after a frame is some bullet of the frame before, moved by its velocity times deltaTime times the time scale |
| Simulation.TickParticles | src/App.tsx:204-248 | the particles after a frame are the old ones aged by one step (moved by the scaled delta, life reduced by 0.02 times the time scale) that still have positive life, in their old order, followed by fresh sparks of life 1, 8 for every 100 points scored |
| Simulation.AgedSurvivors | src/App.tsx:204-211 | a particle list that starts with the aged, still-visible particles and continues with particles of life 1 consists of exactly the aged survivors, in order, then the sparks |
| Combat.BarrageKeepsParticles | src/App.tsx:236-248 | the bullet pass leaves the particles it is given in place, in order, and only appends particles of life 1 |
| Simulation.Shoot | src/App.tsx:70-102 | a shot outside play or within 150 ms of the last is a no-op; otherwise exactly one active bullet of radius 4 is appended at the player's position, facing its heading with velocity (cos, sin) of that heading times the bullet speed 1, lastShotTime becomes now, and only player, bullets and shake change |
| Simulation.ShotSpeed | src/App.tsx:77-81 | when cos and sin of the player's heading lie on the unit circle, the fired bullet's speed is exactly the bullet speed 1 |
| Simulation.FireRateGate | src/App.tsx:75 | two shots less than 150 ms apart add at most one bullet and change neither enemies, score nor game-over |
| Simulation.Start | src/App.tsx:291-293 | starting sets gameStarted and changes nothing else; play begins iff the game is not over |
| Simulation.Restart | src/App.tsx:295-304 | restart yields the initial world, started, with the player centred (and hence in bounds in a roomy arena) |
| Simulation.RecordHighScore | src/App.tsx:63-68 | the recorded high score is the larger of the old one and the current score |
| Simulation.Apply | src/App.tsx:63-304 | after any event the high score has not fallen and is at least the score; restart yields the restarted world and keeps the spawn accumulator; only frames move the accumulator |
| Simulation.PhaseMachine | src/App.tsx:72-304 | NotStarted -> Playing -> Over: restart always enters Playing, start enters Playing unless over, shots never change phase, frames never return to NotStarted, and only restart leaves Over |
| Simulation.FrozenWhenOver | src/App.tsx:72-292 | once over, any event sequence without a restart leaves the session unchanged |
| Simulation.ScoreMonotone | src/App.tsx:63-68 | over any event sequence the high score never falls and bounds the score; without restarts the score never falls |
| Simulation.AlwaysSettled | src/App.tsx:269-270 | every enemy and bullet stays active across any event sequence |
| Simulation.AlwaysInBounds | src/App.tsx:145-146 | in an arena at least 40 wide and high, a player starting in bounds stays in bounds across any event sequence |

## Left out

- Rendering, audio, menus, the joystick and shoot-button components, and the 3D scene: presentation only.
- The animation-frame loop (`useGameLoop`): a frame is an `Event` with its delta as a parameter.
- The auto-fire interval: while the mouse is held the code fires every 150 ms through a timer. A shot is an `Event`; the timer's lifecycle is not modelled.
- The resize listener and the mount effect (`src/App.tsx:47-57`), which also centres the player at half the window's width and height: the arena size is a parameter, and a world's starting position is whatever the caller supplies. Simulation.Restart centres the player in the arena.
- Mouse position and button tracking: these are inputs of a frame.
- The localStorage read and write of the high score: only the in-memory maximum is modelled.
- Entity ids, colours and the optional `subtype`, `maxHealth` and `hitFlashTime` fields: cosmetic or unused by the core. The random draws spent on ids are still counted.
- The exact velocity, size and shake values drawn from randomness, and the arithmetic of trigonometric motion: only their structure is modelled.
- Floating-point rounding: coordinates are exact reals.
- Keyboard.MovementIsUnit: states unit length only for a square root that is correct on 0, 1 and 2, because `Math.sqrt` is a parameter of the model.
- Simulation.SpawnsOffEdge: assumes random values in [0, 1) and a positive arena, which `Math.random` and the layout supply outside the model.
- Simulation.Tick: the in-bounds guarantee needs an arena at least 40 wide and high. A smaller arena makes the clamp return 20 even when width - 20 is below 20.
- Render-time reads in `updateGame`: the code takes the frame guard (`src/App.tsx:114`) and the `bullets.length` activity test (`src/App.tsx:125`) from the render-time `gameState`, not from the updater's `prev`. The model reads both from the world the frame updates, so a stale closure is not modelled. In the code, a frame queued from a render that still saw a running game would run on a world that is already over. Its `let gameOver = false` (`src/App.tsx:215`) would then clear that game over unless an enemy still touches the player.
- Simulation.Chase: the direction of a step is fixed only through the uninterpreted `atan2` heading toward the player. Its length is stated, in Simulation.ChaseStride, only where `cos` and `sin` of that heading lie on the unit circle, because the trigonometric functions are parameters of the model.
- Simulation.TickEnemies: states the chase step as the scaled delta. Simulation.ScaledDeltaIsProduct equates that with deltaTime times the time scale, and ScaledDelta's own contract gives its value in active and idle frames.
- Simulation.TickSpawn: states the accumulator's advance as the scaled delta. Simulation.ScaledDeltaIsProduct equates that with deltaTime times the time scale; the two are kept apart to keep each proof small.

=== FILE: combat.dfy ===
/**
 Collision resolution of one frame (src/App.tsx, the "Collision Detection"
 block): every live bullet against every live enemy, then every live enemy
 against the player. The nested `forEach` loops, which mutate the flags of
 the entities they visit, are folds over the sequences in their order.
 */
module Combat {
  import opened Geometry
  import opened Sequences
  import opened GameModel

  const KILL_SCORE: int := 100
  /** Sparks emitted per destroyed enemy. */
  const BURST_SIZE: nat := 8
  /** Math.random() draws per destroyed enemy: angle, speed and size for
      each spark, then the two axes of the screen shake. */
  const KILL_ROLLS: nat := 3 * BURST_SIZE + 2
  const PI: real := 3.141592653589793
  const KILL_SHAKE: real := 10.0
  const CRASH_SHAKE: real := 20.0

  /** What the collision passes accumulate besides the entity flags. `roll`
      is the index of the next Math.random() value in `dice`. */
  datatype Fallout = Fallout(score: int, particles: seq<Particle>, shake: Vec2, roll: nat)

  /** A screen-shake offset `(Math.random() - 0.5) * magnitude` per axis. */
  function Jolt(dice: nat -> real, k: nat, magnitude: real): Vec2
  {
    Vec2((dice(k) - 0.5) * magnitude, (dice(k + 1) - 0.5) * magnitude)
  }

  /** One spark of an explosion, from three consecutive rolls. */
  function Spark(at: Vec2, dice: nat -> real, k: nat, trig: Trig): Particle
  {
    var angle := dice(k) * PI * 2.0;
    var speed := dice(k + 1) * 2.0 + 1.0;
    Particle(at, Vec2(trig.cos(angle) * speed, trig.sin(angle) * speed), 1.0, 1.0, dice(k + 2) * 4.0 + 2.0)
  }

  /** The explosion left where an enemy dies: fresh sparks at its centre. */
  function Burst(at: Vec2, dice: nat -> real, k: nat, trig: Trig): (r: seq<Particle>)
    ensures |r| == BURST_SIZE
    ensures forall i | 0 <= i < |r| :: r[i].position == at && r[i].life == 1.0 && r[i].maxLife == 1.0
  {
    seq(BURST_SIZE, i requires 0 <= i < BURST_SIZE => Spark(at, dice, k + 3 * i, trig))
  }

  /** The effects of destroying one enemy standing at `at`. */
  function Kill(out: Fallout, at: Vec2, dice: nat -> real, trig: Trig): Fallout
  {
    Fallout(
      out.score + KILL_SCORE,
      out.particles + Burst(at, dice, out.roll, trig),
      Jolt(dice, out.roll + 3 * BURST_SIZE, KILL_SHAKE),
      out.roll + KILL_ROLLS)
  }

  /** Bullet b touches e and e is still live. */
  predicate Hits(b: Entity, e: Entity)
  {
    e.active && Within(b.position, e.position, b.radius + e.radius)
  }

  /** e as it is after b passes over it. */
  function Struck(b: Entity, e: Entity): Entity
  {
    if Hits(b, e) then e.(active := false) else e
  }

  datatype Sweep = Sweep(enemies: seq<Entity>, hit: bool, out: Fallout)

  /** The inner loop for one live bullet b: each live enemy it touches is
      destroyed. The bullet's own flag is not looked at again inside the
      loop, so one bullet destroys every enemy it touches. */
  function SweepEnemies(b: Entity, es: seq<Entity>, out: Fallout, dice: nat -> real, trig: Trig): (r: Sweep)
    ensures |r.enemies| == |es|
    ensures forall j | 0 <= j < |es| :: r.enemies[j] == Struck(b, es[j])
    ensures r.hit <==> exists j | 0 <= j < |es| :: Hits(b, es[j])
    ensures !r.hit ==> r.out == out
    decreases |es|
  {
    if |es| == 0 then Sweep([], false, out)
    else
      var e := es[0];
      if Hits(b, e) then
        var rest := SweepEnemies(b, es[1..], Kill(out, e.position, dice, trig), dice, trig);
        Sweep([e.(active := false)] + rest.enemies, true, rest.out)
      else
        var rest := SweepEnemies(b, es[1..], out, dice, trig);
        Sweep([e] + rest.enemies, rest.hit, rest.out)
  }

  /** A sweep never lowers the score, and one that scores nothing leaves
      the screen shake where it was. */
  lemma {:induction false} SweepQuiet(b: Entity, es: seq<Entity>, out: Fallout, dice: nat -> real, trig: Trig)
    ensures var r := SweepEnemies(b, es, out, dice, trig);
      && r.out.score >= out.score
      && (r.out.score == out.score ==> r.out.shake == out.shake)
    decreases |es|
  {
    if |es| > 0 {
      if Hits(b, es[0]) {
        SweepQuiet(b, es[1..], Kill(out, es[0].position, dice, trig), dice, trig);
      } else {
        SweepQuiet(b, es[1..], out, dice, trig);
      }
    }
  }

  /** The effects a sweep accumulates are those of one Kill per enemy it
      destroys: score, sparks (all visible) and rolls. */
  lemma {:induction false} SweepAccounting(b: Entity, es: seq<Entity>, out: Fallout, dice: nat -> real, trig: Trig)
    ensures var r := SweepEnemies(b, es, out, dice, trig);
      && |Live(r.enemies)| <= |Live(es)|
      && r.out.score == out.score + KILL_SCORE * (|Live(es)| - |Live(r.enemies)|)
      && |r.out.particles| == |out.particles| + BURST_SIZE * (|Live(es)| - |Live(r.enemies)|)
      && (Glowing(out.particles) ==> Glowing(r.out.particles))
    decreases |es|
  {
    if |es| > 0 {
      var e := es[0];
      if Hits(b, e) {
        var out1 := Kill(out, e.position, dice, trig);
        SweepAccounting(b, es[1..], out1, dice, trig);
        assert |out1.particles| == |out.particles| + BURST_SIZE;
        assert Glowing(out.particles) ==> Glowing(out1.particles);
      } else {
        SweepAccounting(b, es[1..], out, dice, trig);
      }
    }
  }

  /** ps is base followed only by fresh sparks. */
  predicate Extends(ps: seq<Particle>, base: seq<Particle>)
  {
    && |base| <= |ps|
    && ps[..|base|] == base
    && forall i | |base| <= i < |ps| :: ps[i].life == 1.0
  }

  lemma ExtendsTrans(a: seq<Particle>, b: seq<Particle>, c: seq<Particle>)
    requires Extends(b, a) && Extends(c, b)
    ensures Extends(c, a)
  {
    assert c[..|a|] == c[..|b|][..|a|];
  }

  /** A sweep only appends to the particles: what was there keeps its place
      and everything after it is a fresh spark. */
  lemma {:induction false} SweepKeepsParticles(b: Entity, es: seq<Entity>, out: Fallout, dice: nat -> real, trig: Trig)
    ensures Extends(SweepEnemies(b, es, out, dice, trig).out.particles, out.particles)
    decreases |es|
  {
    if |es| == 0 {
      assert out.particles[..|out.particles|] == out.particles;
    } else {
      var e := es[0];
      if Hits(b, e) {
        var out1 := Kill(out, e.position, dice, trig);
        SweepKeepsParticles(b, es[1..], out1, dice, trig);
        assert out1.particles[..|out.particles|] == out.particles;
        ExtendsTrans(out.particles, out1.particles, SweepEnemies(b, es, out, dice, trig).out.particles);
      } else {
        SweepKeepsParticles(b, es[1..], out, dice, trig);
      }
    }
  }

  /** Some live bullet of bs touches e while e is live. */
  predicate ShotDown(bs: seq<Entity>, e: Entity)
  {
    exists i | 0 <= i < |bs| :: bs[i].active && Hits(bs[i], e)
  }

  /** e as it is after all of bs has been resolved. */
  function Wreck(bs: seq<Entity>, e: Entity): Entity
  {
    if ShotDown(bs, e) then e.(active := false) else e
  }

  /** Bullet i of bs is live and, when its turn comes, touches an enemy
      that the earlier bullets have left live. */
  predicate Spent(bs: seq<Entity>, es: seq<Entity>, i: nat)
    requires i < |bs|
  {
    bs[i].active && exists j | 0 <= j < |es| :: Hits(bs[i], Wreck(bs[..i], es[j]))
  }

  datatype Volley = Volley(bullets: seq<Entity>, enemies: seq<Entity>, out: Fallout)

  /** The outer loop: each bullet that is live when its turn comes sweeps
      the enemies, and is destroyed when it destroyed something. */
  function Barrage(bs: seq<Entity>, es: seq<Entity>, out: Fallout, dice: nat -> real, trig: Trig): (r: Volley)
    ensures |r.bullets| == |bs| && |r.enemies| == |es|
    ensures forall i | 0 <= i < |bs| :: r.bullets[i].active ==> bs[i].active
    ensures forall i | 0 <= i < |bs| :: r.bullets[i].position == bs[i].position
    decreases |bs|
  {
    if |bs| == 0 then Volley([], es, out)
    else
      var b := bs[0];
      if !b.active then
        var rest := Barrage(bs[1..], es, out, dice, trig);
        PrependKeeps(b, rest.bullets, bs);
        Volley([b] + rest.bullets, rest.enemies, rest.out)
      else
        var sweep := SweepEnemies(b, es, out, dice, trig);
        var rest := Barrage(bs[1..], sweep.enemies, sweep.out, dice, trig);
        var head := if sweep.hit then b.(active := false) else b;
        PrependKeeps(head, rest.bullets, bs);
        Volley([head] + rest.bullets, rest.enemies, rest.out)
  }

  /** The bullet pass never lowers the score, and a pass that scores
      nothing leaves the screen shake where it was. */
  lemma {:induction false} BarrageQuiet(bs: seq<Entity>, es: seq<Entity>, out: Fallout, dice: nat -> real, trig: Trig)
    ensures var r := Barrage(bs, es, out, dice, trig);
      && r.out.score >= out.score
      && (r.out.score == out.score ==> r.out.shake == out.shake)
    decreases |bs|
  {
    if |bs| > 0 {
      var b := bs[0];
      if !b.active {
        BarrageQuiet(bs[1..], es, out, dice, trig);
      } else {
        var sweep := SweepEnemies(b, es, out, dice, trig);
        SweepQuiet(b, es, out, dice, trig);
        BarrageQuiet(bs[1..], sweep.enemies, sweep.out, dice, trig);
      }
    }
  }

  /** Putting the first bullet's outcome in front of the outcomes of the
      rest keeps every bullet's position and revives none. */
  lemma PrependKeeps(h: Entity, rest: seq<Entity>, bs: seq<Entity>)
    requires 0 < |bs| && |rest| == |bs| - 1
    requires (h.active ==> bs[0].active) && h.position == bs[0].position
    requires forall i | 0 <= i < |bs[1..]| :: rest[i].active ==> bs[1..][i].active
    requires forall i | 0 <= i < |bs[1..]| :: rest[i].position == bs[1..][i].position
    ensures forall i | 0 <= i < |bs| :: ([h] + rest)[i].active ==> bs[i].active
    ensures forall i | 0 <= i < |bs| :: ([h] + rest)[i].position == bs[i].position
  {
    forall i | 1 <= i < |bs|
      ensures ([h] + rest)[i] == rest[i - 1] && bs[i] == bs[1..][i - 1]
    {
    }
  }

  /** The effects of the whole bullet pass are those of one Kill per enemy
      it destroys. */
  lemma {:induction false} BarrageAccounting(bs: seq<Entity>, es: seq<Entity>, out: Fallout, dice: nat -> real, trig: Trig)
    ensures var r := Barrage(bs, es, out, dice, trig);
      && |Live(r.enemies)| <= |Live(es)|
      && r.out.score == out.score + KILL_SCORE * (|Live(es)| - |Live(r.enemies)|)
      && |r.out.particles| == |out.particles| + BURST_SIZE * (|Live(es)| - |Live(r.enemies)|)
      && (Glowing(out.particles) ==> Glowing(r.out.particles))
    decreases |bs|
  {
    if |bs| > 0 {
      var b := bs[0];
      if !b.active {
        BarrageAccounting(bs[1..], es, out, dice, trig);
      } else {
        var sweep := SweepEnemies(b, es, out, dice, trig);
        SweepAccounting(b, es, out, dice, trig);
        BarrageAccounting(bs[1..], sweep.enemies, sweep.out, dice, trig);
      }
    }
  }

  /** The whole bullet pass only appends fresh sparks to the particles. */
  lemma {:induction false} BarrageKeepsParticles(bs: seq<Entity>, es: seq<Entity>, out: Fallout, dice: nat -> real, trig: Trig)
    ensures Extends(Barrage(bs, es, out, dice, trig).out.particles, out.particles)
    decreases |bs|
  {
    if |bs| == 0 {
      assert out.particles[..|out.particles|] == out.particles;
    } else {
      var b := bs[0];
      if !b.active {
        BarrageKeepsParticles(bs[1..], es, out, dice, trig);
      } else {
        var sweep := SweepEnemies(b, es, out, dice, trig);
        SweepKeepsParticles(b, es, out, dice, trig);
        BarrageKeepsParticles(bs[1..], sweep.enemies, sweep.out, dice, trig);
        ExtendsTrans(out.particles, sweep.out.particles, Barrage(bs, es, out, dice, trig).out.particles);
      }
    }
  }

  /** Resolving bullet b first and then the rest is resolving them all. */
  lemma WreckCons(b: Entity, tail: seq<Entity>, e: Entity)
    ensures Wreck([b] + tail, e) == if b.active then Wreck(tail, Struck(b, e)) else Wreck(tail, e)
  {
    var bs := [b] + tail;
    assert bs[0] == b;
    assert forall i | 0 <= i < |tail| :: bs[i + 1] == tail[i];
    if ShotDown(tail, e) {
      var i :| 0 <= i < |tail| && tail[i].active && Hits(tail[i], e);
      assert bs[i + 1].active && Hits(bs[i + 1], e);
    }
    if ShotDown(bs, e) && !(b.active && Hits(b, e)) {
      var i :| 0 <= i < |bs| && bs[i].active && Hits(bs[i], e);
      assert i != 0;
      assert tail[i - 1].active && Hits(tail[i - 1], e);
    }
  }

  /** An enemy ends the pass destroyed exactly when some live bullet
      touches it and it was live: independent of the order of the bullets. */
  lemma {:induction false} BarrageWrecks(bs: seq<Entity>, es: seq<Entity>, out: Fallout, dice: nat -> real, trig: Trig)
    ensures var r := Barrage(bs, es, out, dice, trig);
      forall j | 0 <= j < |es| :: r.enemies[j] == Wreck(bs, es[j])
    decreases |bs|
  {
    var r := Barrage(bs, es, out, dice, trig);
    if |bs| == 0 {
      forall j | 0 <= j < |es| ensures r.enemies[j] == Wreck(bs, es[j]) {
        assert !ShotDown(bs, es[j]);
      }
    } else {
      var b := bs[0];
      assert bs == [b] + bs[1..];
      if !b.active {
        BarrageWrecks(bs[1..], es, out, dice, trig);
        forall j | 0 <= j < |es| ensures r.enemies[j] == Wreck(bs, es[j]) {
          WreckCons(b, bs[1..], es[j]);
        }
      } else {
        var sweep := SweepEnemies(b, es, out, dice, trig);
        BarrageWrecks(bs[1..], sweep.enemies, sweep.out, dice, trig);
        forall j | 0 <= j < |es| ensures r.enemies[j] == Wreck(bs, es[j]) {
          WreckCons(b, bs[1..], es[j]);
        }
      }
    }
  }

  /** Bullet k of the tail sees, on its turn, the same enemies whether the
      head bullet b is resolved first or counted among the earlier bullets. */
  lemma SpentCons(b: Entity, tail: seq<Entity>, es: seq<Entity>, es1: seq<Entity>, k: nat)
    requires k < |tail| && |es1| == |es|
    requires forall j | 0 <= j < |es| :: es1[j] == if b.active then Struck(b, es[j]) else es[j]
    ensures Spent(tail, es1, k) == Spent([b] + tail, es, k + 1)
  {
    var bs := [b] + tail;
    assert bs[k + 1] == tail[k];
    assert bs[..k + 1] == [b] + tail[..k];
    forall j | 0 <= j < |es| ensures Wreck(tail[..k], es1[j]) == Wreck(bs[..k + 1], es[j]) {
      WreckCons(b, tail[..k], es[j]);
    }
  }

  /** The first bullet is spent exactly when its sweep hits. */
  lemma SpentHead(bs: seq<Entity>, es: seq<Entity>)
    requires 0 < |bs|
    ensures Spent(bs, es, 0) <==> bs[0].active && exists j | 0 <= j < |es| :: Hits(bs[0], es[j])
  {
    assert bs[..0] == [];
    forall j | 0 <= j < |es| ensures Wreck(bs[..0], es[j]) == es[j] {
      assert !ShotDown(bs[..0], es[j]);
    }
  }

  /** One step of the outer loop: the head bullet is resolved against the
      enemies, and the tail then runs against what it left. */
  lemma BarrageStep(bs: seq<Entity>, es: seq<Entity>, out: Fallout, dice: nat -> real, trig: Trig)
    requires 0 < |bs|
    ensures var r := Barrage(bs, es, out, dice, trig);
      var b := bs[0];
      var sweep := SweepEnemies(b, es, out, dice, trig);
      var es1 := if b.active then sweep.enemies else es;
      var out1 := if b.active then sweep.out else out;
      && r.bullets[0] == (if Spent(bs, es, 0) then b.(active := false) else b)
      && r.bullets[1..] == Barrage(bs[1..], es1, out1, dice, trig).bullets
      && |es1| == |es|
      && (forall j | 0 <= j < |es| :: es1[j] == if b.active then Struck(b, es[j]) else es[j])
  {
    SpentHead(bs, es);
  }

  /** If the tail's outcome is described by Spent against the enemies the
      head bullet left, the whole pass's outcome past the head is described
      by Spent against the original enemies. */
  lemma SpentShift(bs: seq<Entity>, es: seq<Entity>, es1: seq<Entity>, after: seq<Entity>, rest: seq<Entity>)
    requires 0 < |bs| && |after| == |bs| && after[1..] == rest && |es1| == |es|
    requires forall j | 0 <= j < |es| :: es1[j] == if bs[0].active then Struck(bs[0], es[j]) else es[j]
    requires forall i | 0 <= i < |bs| - 1 :: rest[i] == if Spent(bs[1..], es1, i) then bs[1..][i].(active := false) else bs[1..][i]
    ensures forall i | 1 <= i < |bs| :: after[i] == if Spent(bs, es, i) then bs[i].(active := false) else bs[i]
  {
    var b := bs[0];
    var tail := bs[1..];
    assert bs == [b] + tail;
    forall i | 1 <= i < |bs| ensures after[i] == if Spent(bs, es, i) then bs[i].(active := false) else bs[i] {
      assert after[i] == rest[i - 1];
      assert bs[i] == tail[i - 1];
      SpentCons(b, tail, es, es1, i - 1);
    }
  }

  /** A bullet ends the pass destroyed exactly when it was live and met a
      live enemy on its turn; earlier bullets take precedence. */
  lemma {:induction false} BarrageSpends(bs: seq<Entity>, es: seq<Entity>, out: Fallout, dice: nat -> real, trig: Trig)
    ensures var r := Barrage(bs, es, out, dice, trig);
      forall i | 0 <= i < |bs| :: r.bullets[i] == if Spent(bs, es, i) then bs[i].(active := false) else bs[i]
    decreases |bs|
  {
    if |bs| > 0 {
      var r := Barrage(bs, es, out, dice, trig);
      var b := bs[0];
      var sweep := SweepEnemies(b, es, out, dice, trig);
      var es1 := if b.active then sweep.enemies else es;
      var out1 := if b.active then sweep.out else out;
      BarrageStep(bs, es, out, dice, trig);
      BarrageSpends(bs[1..], es1, out1, dice, trig);
      SpentShift(bs, es, es1, r.bullets, Barrage(bs[1..], es1, out1, dice, trig).bullets);
    }
  }

  /** A bullet still live after the pass went through it unchanged. */
  lemma BarrageKeepsLive(bs: seq<Entity>, es: seq<Entity>, out: Fallout, dice: nat -> real, trig: Trig)
    ensures var r := Barrage(bs, es, out, dice, trig);
      && |r.bullets| == |bs|
      && forall k | 0 <= k < |bs| :: r.bullets[k].active ==> r.bullets[k] == bs[k]
  {
    BarrageSpends(bs, es, out, dice, trig);
  }

  /** An enemy still live after the pass went through it unchanged. */
  lemma BarrageKeepsLiveEnemies(bs: seq<Entity>, es: seq<Entity>, out: Fallout, dice: nat -> real, trig: Trig)
    ensures var r := Barrage(bs, es, out, dice, trig);
      && |r.enemies| == |es|
      && forall k | 0 <= k < |es| :: r.enemies[k].active ==> r.enemies[k] == es[k]
  {
    BarrageWrecks(bs, es, out, dice, trig);
  }

  /** How many enemies of es the bullets of bs destroy. */
  function CountShotDown(bs: seq<Entity>, es: seq<Entity>): nat
    decreases |es|
  {
    if |es| == 0 then 0
    else (if es[0].active && ShotDown(bs, es[0]) then 1 else 0) + CountShotDown(bs, es[1..])
  }

  /** Destroying the enemies shot down shrinks the live set by exactly their
      number: an enemy already destroyed is never counted twice. */
  lemma {:induction false} WreckedCount(bs: seq<Entity>, es: seq<Entity>, after: seq<Entity>)
    requires |after| == |es|
    requires forall j | 0 <= j < |es| :: after[j] == Wreck(bs, es[j])
    ensures |Live(es)| == |Live(after)| + CountShotDown(bs, es)
    decreases |es|
  {
    if |es| > 0 {
      WreckedCount(bs, es[1..], after[1..]);
    }
  }

  /** Score accounting of the bullet pass: exactly KILL_SCORE per enemy that
      a live bullet destroys, never less than before. */
  lemma BarrageScore(bs: seq<Entity>, es: seq<Entity>, out: Fallout, dice: nat -> real, trig: Trig)
    ensures var r := Barrage(bs, es, out, dice, trig);
      r.out.score == out.score + KILL_SCORE * CountShotDown(bs, es) >= out.score
  {
    var r := Barrage(bs, es, out, dice, trig);
    BarrageAccounting(bs, es, out, dice, trig);
    BarrageWrecks(bs, es, out, dice, trig);
    WreckedCount(bs, es, r.enemies);
  }

  /** One bullet touching two live enemies destroys both of them in the
      same frame and scores for each. */
  lemma OneBulletManyKills(b: Entity, e1: Entity, e2: Entity, out: Fallout, dice: nat -> real, trig: Trig)
    requires b.active && Hits(b, e1) && Hits(b, e2)
    ensures var r := Barrage([b], [e1, e2], out, dice, trig);
      && !r.enemies[0].active && !r.enemies[1].active && !r.bullets[0].active
      && r.out.score == out.score + 2 * KILL_SCORE
  {
    var r := Barrage([b], [e1, e2], out, dice, trig);
    BarrageWrecks([b], [e1, e2], out, dice, trig);
    assert [b][0] == b;
    assert ShotDown([b], e1) && ShotDown([b], e2);
    BarrageScore([b], [e1, e2], out, dice, trig);
    assert CountShotDown([b], [e2]) == 1 by {
      assert [e2][1..] == [];
    }
    assert [e1, e2][1..] == [e2];
  }

  /** Live enemy e overlaps the player circle centred at `at`. */
  predicate Touches(e: Entity, at: Vec2, radius: real)
  {
    e.active && Within(e.position, at, e.radius + radius)
  }

  datatype Crash = Crash(gameOver: bool, shake: Vec2, roll: nat)

  /** The enemy-versus-player loop: any live enemy on the player ends the
      game and jolts the screen. */
  function Contact(es: seq<Entity>, at: Vec2, radius: real, c: Crash, dice: nat -> real): (r: Crash)
    ensures r.gameOver <==> c.gameOver || exists j | 0 <= j < |es| :: Touches(es[j], at, radius)
    ensures (forall j | 0 <= j < |es| :: !Touches(es[j], at, radius)) ==> r == c
    ensures r.roll >= c.roll
    decreases |es|
  {
    if |es| == 0 then c
    else
      var next := if Touches(es[0], at, radius) then Crash(true, Jolt(dice, c.roll, CRASH_SHAKE), c.roll + 2) else c;
      Contact(es[1..], at, radius, next, dice)
  }

  /** Dropping destroyed enemies changes nothing about whether a live one
      touches the player. */
  lemma ContactSurvivors(es: seq<Entity>, at: Vec2, radius: real)
    ensures (exists j | 0 <= j < |es| :: Touches(es[j], at, radius))
        <==> (exists i | 0 <= i < |Live(es)| :: Touches(Live(es)[i], at, radius))
  {
    var live := Live(es);
    if j :| 0 <= j < |es| && Touches(es[j], at, radius) {
      assert es[j] in es && IsLive(es[j]);
      assert es[j] in live;
      var i :| 0 <= i < |live| && live[i] == es[j];
    }
    if i :| 0 <= i < |live| && Touches(live[i], at, radius) {
      assert live[i] in es;
      var j :| 0 <= j < |es| && es[j] == live[i];
    }
  }
}

=== FILE: game_state.dfy ===
/**
 The records of src/game/GameState.ts and the INITIAL_STATE value.
 Identifiers and colour strings are left out: nothing in the simulation
 reads them.
 */
module GameModel {
  import opened Geometry
  import opened Sequences

  datatype EntityKind = PlayerUnit | Enemy | Bullet | Wall | PowerUp

  /** An enemy, bullet, wall or power-up. `active == false` marks an entity
      that the current frame has destroyed and will filter out. */
  datatype Entity = Entity(
    kind: EntityKind,
    position: Vec2,
    velocity: Vec2,
    rotation: real,
    radius: real,
    active: bool,
    health: int)

  /** The single player tank: the Entity fields plus its timers. */
  datatype Player = Player(
    position: Vec2,
    velocity: Vec2,
    rotation: real,
    turretRotation: real,
    radius: real,
    active: bool,
    health: int,
    maxHealth: int,
    lastShotTime: int,
    dashCooldown: real,
    overchargeTime: real,
    recoil: real)

  /** A short-lived spark; it fades as `life` runs down from 1 to 0. */
  datatype Particle = Particle(position: Vec2, velocity: Vec2, life: real, maxLife: real, size: real)

  datatype DamageText = DamageText(position: Vec2, text: string, life: real, velocity: Vec2)

  datatype DebrisKind = Scorch | Part

  datatype Debris = Debris(position: Vec2, rotation: real, kind: DebrisKind)

  datatype GameState = GameState(
    player: Player,
    enemies: seq<Entity>,
    bullets: seq<Entity>,
    walls: seq<Entity>,
    particles: seq<Particle>,
    damageTexts: seq<DamageText>,
    powerUps: seq<Entity>,
    debris: seq<Debris>,
    screenShake: Vec2,
    isMoving: bool,
    score: int,
    highScore: int,
    level: int,
    gameOver: bool,
    gameStarted: bool)

  /** Used as a function value for filtering out destroyed entities. */
  predicate IsLive(e: Entity)
  {
    e.active
  }

  /** The entities of es that are still active, in order. */
  function Live(es: seq<Entity>): seq<Entity>
  {
    Filter(es, IsLive)
  }

  /** The simulation is advancing: started and not yet over. */
  predicate Running(g: GameState)
  {
    g.gameStarted && !g.gameOver
  }

  /** No destroyed enemy or bullet is left lying in the state. */
  predicate Settled(g: GameState)
  {
    && (forall i | 0 <= i < |g.enemies| :: g.enemies[i].active)
    && (forall i | 0 <= i < |g.bullets| :: g.bullets[i].active)
  }

  /** Every particle is still visible. */
  predicate Glowing(ps: seq<Particle>)
  {
    forall i | 0 <= i < |ps| :: ps[i].life > 0.0
  }

  /** A fresh world: every collection empty, nothing scored, a whole player
      with idle timers. */
  predicate Pristine(g: GameState)
  {
    && g.enemies == [] && g.bullets == [] && g.walls == [] && g.particles == []
    && g.damageTexts == [] && g.powerUps == [] && g.debris == []
    && g.screenShake == Origin
    && g.score == 0 && g.level == 1 && !g.gameOver
    && g.player.velocity == Origin && g.player.rotation == 0.0 && g.player.turretRotation == 0.0
    && g.player.active && g.player.radius == 15.0
    && g.player.health == 100 && g.player.maxHealth == 100
    && g.player.lastShotTime == 0 && g.player.dashCooldown == 0.0
    && g.player.overchargeTime == 0.0 && g.player.recoil == 0.0
  }

  /** INITIAL_STATE. */
  function Initial(): (g: GameState)
    ensures Pristine(g) && Settled(g)
    ensures !g.gameStarted && g.highScore == 0 && !g.isMoving
    ensures g.player.position == Origin
  {
    GameState(
      player := Player(
        position := Origin, velocity := Origin, rotation := 0.0, turretRotation := 0.0,
        radius := 15.0, active := true, health := 100, maxHealth := 100,
        lastShotTime := 0, dashCooldown := 0.0, overchargeTime := 0.0, recoil := 0.0),
      enemies := [], bullets := [], walls := [], particles := [], damageTexts := [],
      powerUps := [], debris := [],
      screenShake := Origin, isMoving := false,
      score := 0, highScore := 0, level := 1, gameOver := false, gameStarted := false)
  }
}

=== FILE: geometry.dfy ===
/**
 Plane geometry shared by the simulation: vectors in screen coordinates,
 the circle-overlap test used by every collision, and clamping.
 */
module Geometry {

  /** A point or a velocity; y grows downwards, as on a canvas. */
  datatype Vec2 = Vec2(x: real, y: real)

  const Origin: Vec2 := Vec2(0.0, 0.0)

  /** The browser's Math.atan2, Math.cos and Math.sin. Nothing is assumed
      about them: the model only ever passes their results along. */
  datatype Trig = Trig(atan2: (real, real) -> real, cos: real -> real, sin: real -> real)

  function Abs(v: real): (r: real)
    ensures 0.0 <= r
    ensures r == v || r == -v
  {
    if v < 0.0 then -v else v
  }

  /** Squared length of a vector. */
  function Norm2(v: Vec2): real
  {
    v.x * v.x + v.y * v.y
  }

  /** `Math.max(lo, Math.min(hi, v))`. */
  function Clamp(v: real, lo: real, hi: real): (r: real)
    ensures lo <= r
    ensures lo <= hi ==> r <= hi
    ensures r == v || r == lo || r == hi
    ensures lo <= v <= hi ==> r == v
    ensures v < lo ==> r == lo
    ensures lo <= hi < v ==> r == hi
    ensures hi < lo ==> r == lo
  {
    var m := if v < hi then v else hi;
    if m > lo then m else lo
  }

  /** The distance from p to q is strictly less than reach, i.e.
      `Math.sqrt(dx*dx + dy*dy) < reach`. Squaring both sides is exact for
      every real once reach is positive, and a square root is never below a
      non-positive reach. */
  predicate Within(p: Vec2, q: Vec2, reach: real)
  {
    var dx := p.x - q.x;
    var dy := p.y - q.y;
    0.0 < reach && dx * dx + dy * dy < reach * reach
  }

  /** Scaling both sides of a <= b by a non-negative factor. */
  lemma ScaleLe(a: real, b: real, k: real)
    requires a <= b && 0.0 <= k
    ensures a * k <= b * k
  {
    assert b * k - a * k == (b - a) * k;
  }

  /** Scaling both sides of a < b by a positive factor. */
  lemma ScaleLt(a: real, b: real, k: real)
    requires a < b && 0.0 < k
    ensures a * k < b * k
  {
    assert b * k - a * k == (b - a) * k;
  }

  /** The squared test agrees with `Math.sqrt(dx*dx + dy*dy) < reach` for
      every reach, once d is the non-negative root of the squared distance. */
  lemma WithinIsDistance(p: Vec2, q: Vec2, reach: real, d: real)
    requires 0.0 <= d && d * d == (p.x - q.x) * (p.x - q.x) + (p.y - q.y) * (p.y - q.y)
    ensures Within(p, q, reach) <==> d < reach
  {
    if d < reach {
      calc {
        d * d;
      <= { ScaleLe(d, reach, d); }
        reach * d;
      < { ScaleLt(d, reach, reach); }
        reach * reach;
      }
    }
    if 0.0 < reach <= d {
      calc {
        reach * reach;
      <= { ScaleLe(reach, d, reach); }
        d * reach;
      <= { ScaleLe(reach, d, d); }
        d * d;
      }
    }
  }
}

=== FILE: keyboard.dfy ===
/**
 The keyboard half of src/hooks/useKeyboardInput.ts: the set of held key
 codes and the movement vector derived from it. Mouse tracking is a plain
 event-to-state copy and is not modelled here.
 */
module Keyboard {
  import opened Geometry

  /** The `KeyboardEvent.code` values currently held down. */
  type Keys = set<string>

  /** keydown adds the code. */
  function Press(keys: Keys, code: string): (r: Keys)
    ensures code in r
    ensures forall c | c != code :: (c in r <==> c in keys)
  {
    keys + {code}
  }

  /** keyup removes it. */
  function Release(keys: Keys, code: string): (r: Keys)
    ensures code !in r
    ensures forall c | c != code :: (c in r <==> c in keys)
  {
    keys - {code}
  }

  predicate HoldsUp(keys: Keys)    { "KeyW" in keys || "ArrowUp" in keys }
  predicate HoldsDown(keys: Keys)  { "KeyS" in keys || "ArrowDown" in keys }
  predicate HoldsLeft(keys: Keys)  { "KeyA" in keys || "ArrowLeft" in keys }
  predicate HoldsRight(keys: Keys) { "KeyD" in keys || "ArrowRight" in keys }

  /** The eight codes that steer the tank. */
  predicate IsMovementKey(code: string)
  {
    code in {"KeyW", "ArrowUp", "KeyS", "ArrowDown", "KeyA", "ArrowLeft", "KeyD", "ArrowRight"}
  }

  /** One axis before normalisation: -1 for the negative key, +1 for the
      positive key, each counted once however many aliases are held. */
  function Axis(negative: bool, positive: bool): (r: int)
    ensures -1 <= r <= 1
    ensures r == 0 <==> negative == positive
    ensures r < 0 <==> negative && !positive
    ensures r > 0 <==> positive && !negative
  {
    (if negative then -1 else 0) + (if positive then 1 else 0)
  }

  /** `updateMovement`: the raw axes divided by their length when that
      length is positive. `sqrt` stands for Math.sqrt. Whatever it returns,
      each component keeps the sign of its raw axis. */
  function Movement(keys: Keys, sqrt: real -> real): (v: Vec2)
    ensures v.x < 0.0 <==> HoldsLeft(keys) && !HoldsRight(keys)
    ensures v.x > 0.0 <==> HoldsRight(keys) && !HoldsLeft(keys)
    ensures v.y < 0.0 <==> HoldsUp(keys) && !HoldsDown(keys)
    ensures v.y > 0.0 <==> HoldsDown(keys) && !HoldsUp(keys)
  {
    var x := Axis(HoldsLeft(keys), HoldsRight(keys)) as real;
    var y := Axis(HoldsUp(keys), HoldsDown(keys)) as real;
    var magnitude := sqrt(x * x + y * y);
    if magnitude > 0.0 then Vec2(x / magnitude, y / magnitude) else Vec2(x, y)
  }

  /** What a faithful Math.sqrt returns on the only arguments updateMovement
      can give it. */
  predicate SqrtOnSmallSquares(sqrt: real -> real)
  {
    sqrt(0.0) == 0.0 && sqrt(1.0) == 1.0 && 0.0 < sqrt(2.0) && sqrt(2.0) * sqrt(2.0) == 2.0
  }

  /** With no steering key held the tank is told to stand still. */
  lemma NoKeysNoMovement(keys: Keys, sqrt: real -> real)
    requires forall c | c in keys :: !IsMovementKey(c)
    ensures Movement(keys, sqrt) == Origin
  {
  }

  /** Holding both keys of an opposing pair cancels that axis. */
  lemma OpposingKeysCancel(keys: Keys, sqrt: real -> real)
    ensures HoldsUp(keys) && HoldsDown(keys) ==> Movement(keys, sqrt).y == 0.0
    ensures HoldsLeft(keys) && HoldsRight(keys) ==> Movement(keys, sqrt).x == 0.0
  {
  }

  /** A non-zero movement vector has unit length, and a held key always
      contributes a full unit (aliases are not added up). */
  lemma MovementIsUnit(keys: Keys, sqrt: real -> real)
    requires SqrtOnSmallSquares(sqrt)
    ensures var v := Movement(keys, sqrt);
      v == Origin || Norm2(v) == 1.0
  {
  }

  /** The vector depends only on which directions are held: pressing a
      second alias of a held direction changes nothing. */
  lemma SameDirectionsSameMovement(k1: Keys, k2: Keys, sqrt: real -> real)
    requires HoldsUp(k1) == HoldsUp(k2) && HoldsDown(k1) == HoldsDown(k2)
    requires HoldsLeft(k1) == HoldsLeft(k2) && HoldsRight(k1) == HoldsRight(k2)
    ensures Movement(k1, sqrt) == Movement(k2, sqrt)
  {
  }

  /** A key that does not steer leaves the vector as it was, on press and on
      release. */
  lemma OtherKeysIgnored(keys: Keys, code: string, sqrt: real -> real)
    requires !IsMovementKey(code)
    ensures Movement(Press(keys, code), sqrt) == Movement(keys, sqrt)
    ensures Movement(Release(keys, code), sqrt) == Movement(keys, sqrt)
  {
    SameDirectionsSameMovement(Press(keys, code), keys, sqrt);
    SameDirectionsSameMovement(Release(keys, code), keys, sqrt);
  }
}

=== FILE: sequences.dfy ===
/** Order-preserving filtering of sequences, the `Array.prototype.filter` of the simulation. */
module Sequences {

  /** The elements of s that satisfy keep, in their original order. */
  function Filter<T(==)>(s: seq<T>, keep: T -> bool): (r: seq<T>)
    ensures |r| <= |s|
    ensures forall i | 0 <= i < |r| :: keep(r[i]) && r[i] in s
    ensures forall x | x in s && keep(x) :: x in r
    ensures (forall i | 0 <= i < |s| :: keep(s[i])) ==> r == s
    decreases |s|
  {
    if |s| == 0 then []
    else if keep(s[0]) then [s[0]] + Filter(s[1..], keep)
    else Filter(s[1..], keep)
  }

  /** Filtering distributes over concatenation. */
  lemma {:induction false} FilterAppend<T>(a: seq<T>, b: seq<T>, keep: T -> bool)
    ensures Filter(a + b, keep) == Filter(a, keep) + Filter(b, keep)
    decreases |a|
  {
    if |a| == 0 {
      assert a + b == b;
    } else {
      assert (a + b)[0] == a[0];
      assert (a + b)[1..] == a[1..] + b;
      FilterAppend(a[1..], b, keep);
    }
  }

  /** Whatever holds of every element still holds after filtering. */
  lemma FilterAll<T>(s: seq<T>, keep: T -> bool, p: T -> bool)
    requires forall i | 0 <= i < |s| :: p(s[i])
    ensures forall i | 0 <= i < |Filter(s, keep)| :: p(Filter(s, keep)[i])
  {
    var r := Filter(s, keep);
    forall i | 0 <= i < |r| ensures p(r[i]) {
      assert r[i] in s;
      var j :| 0 <= j < |s| && s[j] == r[i];
    }
  }
}

=== FILE: simulation.dfy ===
/**
 The state transitions of src/App.tsx: the per-frame `updateGame` reducer,
 the fire-rate-gated `handleShoot`, `startGame`, `restartGame` and the
 high-score rule. Every Math.random() value a transition draws comes from
 its `dice` argument in call order; Math.atan2/cos/sin come from `trig`.
 */
module Simulation {
  import opened Geometry
  import opened Sequences
  import opened GameModel
  import Combat

  const PLAYER_SPEED: real := 0.4
  const ENEMY_SPEED: real := 0.2
  const BULLET_SPEED: real := 1.0
  /** Milliseconds between two accepted shots. */
  const FIRE_RATE: int := 150
  /** Scaled milliseconds between two enemy spawns. */
  const SPAWN_RATE: real := 1500.0
  /** How close the player's centre may come to the arena border. */
  const MARGIN: real := 20.0
  /** How far outside the arena a new enemy appears. */
  const SPAWN_OFFSET: real := 50.0
  const ENEMY_RADIUS: real := 15.0
  const BULLET_RADIUS: real := 4.0
  /** The time scale when the player is doing nothing. */
  const IDLE_SCALE: real := 0.05
  /** Input magnitude above which the player counts as moving. */
  const DEADZONE: real := 0.1
  /** Life a particle loses per frame at full time scale. */
  const PARTICLE_FADE: real := 0.02
  const SHAKE_DAMPING: real := 0.9
  const SHAKE_FLOOR: real := 0.1
  const SHOT_SHAKE: real := 5.0

  /** The size of the drawing area, in pixels. */
  datatype Arena = Arena(width: real, height: real)

  /** The input snapshot a frame reads: on-screen joystick, keyboard vector,
      last mouse position ((0,0) until the mouse moves) and mouse button. */
  datatype Controls = Controls(joystick: Vec2, keyboard: Vec2, mouse: Vec2, mouseDown: bool)

  /** The game state together with the App component's other state: the
      spawn accumulator (a ref outside the game state) and the stored high
      score. */
  datatype Session = Session(game: GameState, spawnClock: real, highScore: int)

  /** `inputVector.x || keyboardMovement.x` on each axis: the stick wins
      wherever it is non-zero. */
  function Steering(c: Controls): (v: Vec2)
    ensures c.joystick.x != 0.0 ==> v.x == c.joystick.x
    ensures c.joystick.x == 0.0 ==> v.x == c.keyboard.x
    ensures c.joystick.y != 0.0 ==> v.y == c.joystick.y
    ensures c.joystick.y == 0.0 ==> v.y == c.keyboard.y
  {
    Vec2(if c.joystick.x != 0.0 then c.joystick.x else c.keyboard.x,
         if c.joystick.y != 0.0 then c.joystick.y else c.keyboard.y)
  }

  /** `Math.sqrt(x*x + y*y) > 0.1`, compared squared. */
  predicate Moving(v: Vec2)
  {
    Norm2(v) > DEADZONE * DEADZONE
  }

  /** The player is doing something: moving, holding the mouse button, or
      has a bullet in flight. */
  predicate Active(g: GameState, c: Controls)
  {
    Moving(Steering(c)) || c.mouseDown || |g.bullets| > 0
  }

  /** The time-dilation factor of a frame: time only runs at full speed
      while the player acts. */
  function TimeScale(g: GameState, c: Controls): (r: real)
    ensures r == 1.0 <==> Active(g, c)
    ensures r == IDLE_SCALE <==> !Active(g, c)
  {
    if Active(g, c) then 1.0 else IDLE_SCALE
  }

  /** `deltaTime * timeScale`, the milliseconds of game time a frame of
      deltaTime real milliseconds advances by. */
  function ScaledDelta(g: GameState, c: Controls, dt: real): (r: real)
    ensures TimeScale(g, c) == 1.0 ==> r == dt
    ensures TimeScale(g, c) == IDLE_SCALE ==> r == IDLE_SCALE * dt
  {
    if Active(g, c) then dt else dt * IDLE_SCALE
  }

  /** Every distance and timer of a frame advances by deltaTime times the
      time scale. */
  lemma ScaledDeltaIsProduct(g: GameState, c: Controls, dt: real)
    ensures ScaledDelta(g, c, dt) == dt * TimeScale(g, c)
  {  }

  /** The player centre stays this far from every border. */
  predicate InBounds(p: Vec2, arena: Arena)
  {
    MARGIN <= p.x <= arena.width - MARGIN && MARGIN <= p.y <= arena.height - MARGIN
  }

  /** The arena is big enough to hold the player margin on both axes. */
  predicate Roomy(arena: Arena)
  {
    arena.width >= 2.0 * MARGIN && arena.height >= 2.0 * MARGIN
  }

  /** Strictly inside the drawing area. */
  predicate InArena(p: Vec2, arena: Arena)
  {
    0.0 < p.x < arena.width && 0.0 < p.y < arena.height
  }

  /** Where the input would take the player before clamping. */
  function Target(p: Player, steer: Vec2, sd: real): Vec2
  {
    Vec2(p.position.x + steer.x * PLAYER_SPEED * sd, p.position.y + steer.y * PLAYER_SPEED * sd)
  }

  /** The player moves by the input, is clamped into the arena and turns
      towards the mouse (measured from the unclamped position), or else
      along its input when that is past the dead zone. */
  function MovePlayer(p: Player, steer: Vec2, mouse: Vec2, sd: real, arena: Arena, trig: Trig): (r: Player)
    ensures r == p.(position := r.position, rotation := r.rotation)
    ensures Roomy(arena) ==> InBounds(r.position, arena)
    ensures InBounds(Target(p, steer, sd), arena) ==> r.position == Target(p, steer, sd)
    ensures var t := Target(p, steer, sd);
      && (MARGIN <= t.x <= arena.width - MARGIN ==> r.position.x == t.x)
      && (t.x < MARGIN || arena.width - MARGIN < MARGIN ==> r.position.x == MARGIN)
      && (MARGIN <= arena.width - MARGIN < t.x ==> r.position.x == arena.width - MARGIN)
    ensures var t := Target(p, steer, sd);
      && (MARGIN <= t.y <= arena.height - MARGIN ==> r.position.y == t.y)
      && (t.y < MARGIN || arena.height - MARGIN < MARGIN ==> r.position.y == MARGIN)
      && (MARGIN <= arena.height - MARGIN < t.y ==> r.position.y == arena.height - MARGIN)
    ensures mouse != Origin ==> r.rotation == trig.atan2(mouse.y - Target(p, steer, sd).y, mouse.x - Target(p, steer, sd).x)
    ensures mouse == Origin && Moving(steer) ==> r.rotation == trig.atan2(steer.y, steer.x)
    ensures mouse == Origin && !Moving(steer) ==> r.rotation == p.rotation
  {
    var to := Target(p, steer, sd);
    var rotation :=
      if mouse.x != 0.0 || mouse.y != 0.0 then trig.atan2(mouse.y - to.y, mouse.x - to.x)
      else if Moving(steer) then trig.atan2(steer.y, steer.x)
      else p.rotation;
    p.(position := Vec2(Clamp(to.x, MARGIN, arena.width - MARGIN), Clamp(to.y, MARGIN, arena.height - MARGIN)),
       rotation := rotation)
  }

  /** Just outside one of the four edges, by SPAWN_OFFSET, and within the
      span of that edge. */
  predicate OffEdge(p: Vec2, arena: Arena)
  {
    || (p.y == -SPAWN_OFFSET && 0.0 <= p.x < arena.width)
    || (p.x == arena.width + SPAWN_OFFSET && 0.0 <= p.y < arena.height)
    || (p.y == arena.height + SPAWN_OFFSET && 0.0 <= p.x < arena.width)
    || (p.x == -SPAWN_OFFSET && 0.0 <= p.y < arena.height)
  }

  /** The `switch (edge)`: top, right, bottom, left; any other edge value
      leaves the enemy at (0, 0). */
  function SpawnPoint(edge: int, along: real, arena: Arena): (p: Vec2)
    ensures !(0 <= edge <= 3) ==> p == Origin
  {
    if edge == 0 then Vec2(along * arena.width, -SPAWN_OFFSET)
    else if edge == 1 then Vec2(arena.width + SPAWN_OFFSET, along * arena.height)
    else if edge == 2 then Vec2(along * arena.width, arena.height + SPAWN_OFFSET)
    else if edge == 3 then Vec2(-SPAWN_OFFSET, along * arena.height)
    else Origin
  }

  /** A freshly spawned enemy: live, one hit point, radius 15, at rest. */
  predicate Newborn(e: Entity)
  {
    e.kind == Enemy && e.active && e.health == 1 && e.radius == ENEMY_RADIUS && e.velocity == Origin
  }

  datatype Spawn = Spawn(enemies: seq<Entity>, clock: real, roll: nat)

  /** The spawn accumulator: at most one enemy per frame, and the clock is
      reset to zero, so a long frame never spawns a burst. Draws the edge,
      the position along it and the id suffix, in that order. */
  function SpawnEnemy(es: seq<Entity>, clock: real, sd: real, arena: Arena, dice: nat -> real): (r: Spawn)
    ensures clock + sd > SPAWN_RATE ==>
      && r.clock == 0.0
      && |r.enemies| == |es| + 1 && r.enemies[..|es|] == es
      && Newborn(r.enemies[|es|])
    ensures clock + sd <= SPAWN_RATE ==> r == Spawn(es, clock + sd, 0)
    ensures (forall i | 0 <= i < |es| :: es[i].active) ==> (forall i | 0 <= i < |r.enemies| :: r.enemies[i].active)
  {
    var c := clock + sd;
    if c > SPAWN_RATE then
      var edge := (dice(0) * 4.0).Floor;
      var at := SpawnPoint(edge, dice(1), arena);
      Spawn(es + [Entity(Enemy, at, Origin, 0.0, ENEMY_RADIUS, true, 1)], 0.0, if 0 <= edge <= 3 then 3 else 2)
    else
      Spawn(es, c, 0)
  }

  /** `Math.floor(Math.random() * 4)` is one of the four edges. */
  lemma EdgeInRange(roll: real)
    requires 0.0 <= roll < 1.0
    ensures 0 <= (roll * 4.0).Floor <= 3
  {
  }

  /** A fraction in [0, 1) of a positive length falls within it. */
  lemma FractionBelow(a: real, w: real)
    requires 0.0 <= a < 1.0 && 0.0 < w
    ensures 0.0 <= a * w < w
  {
    assert (1.0 - a) * w > 0.0;
  }

  /** The top and bottom edges: a fraction of the width across. */
  lemma HorizontalEdgeOff(edge: int, along: real, arena: Arena)
    requires edge == 0 || edge == 2
    requires 0.0 <= along < 1.0 && arena.width > 0.0
    ensures OffEdge(SpawnPoint(edge, along, arena), arena)
  {
    var x := along * arena.width;
    FractionBelow(along, arena.width);
    assert 0.0 <= x < arena.width;
    if edge == 0 {
      assert SpawnPoint(edge, along, arena) == Vec2(x, -SPAWN_OFFSET);
    } else {
      assert SpawnPoint(edge, along, arena) == Vec2(x, arena.height + SPAWN_OFFSET);
    }
  }

  /** The right and left edges: a fraction of the height down. */
  lemma VerticalEdgeOff(edge: int, along: real, arena: Arena)
    requires edge == 1 || edge == 3
    requires 0.0 <= along < 1.0 && arena.height > 0.0
    ensures OffEdge(SpawnPoint(edge, along, arena), arena)
  {
    var y := along * arena.height;
    FractionBelow(along, arena.height);
    assert 0.0 <= y < arena.height;
    if edge == 1 {
      assert SpawnPoint(edge, along, arena) == Vec2(arena.width + SPAWN_OFFSET, y);
    } else {
      assert SpawnPoint(edge, along, arena) == Vec2(-SPAWN_OFFSET, y);
    }
  }

  /** Given Math.random() values in [0, 1), a spawned enemy appears just
      outside one edge of the arena. */
  lemma SpawnsOffEdge(es: seq<Entity>, clock: real, sd: real, arena: Arena, dice: nat -> real)
    requires 0.0 <= dice(0) < 1.0 && 0.0 <= dice(1) < 1.0
    requires arena.width > 0.0 && arena.height > 0.0
    requires clock + sd > SPAWN_RATE
    ensures OffEdge(SpawnEnemy(es, clock, sd, arena, dice).enemies[|es|].position, arena)
  {
    var edge := (dice(0) * 4.0).Floor;
    EdgeInRange(dice(0));
    if edge == 0 || edge == 2 {
      HorizontalEdgeOff(edge, dice(1), arena);
    } else {
      VerticalEdgeOff(edge, dice(1), arena);
    }
  }

  /** Pure pursuit: the enemy turns to face the player and steps towards it. */
  function Chase(e: Entity, target: Vec2, sd: real, trig: Trig): (r: Entity)
    ensures r == e.(position := r.position, rotation := trig.atan2(target.y - e.position.y, target.x - e.position.x))
    ensures sd == 0.0 ==> r.position == e.position
  {
    var angle := trig.atan2(target.y - e.position.y, target.x - e.position.x);
    e.(position := Vec2(e.position.x + trig.cos(angle) * ENEMY_SPEED * sd,
                        e.position.y + trig.sin(angle) * ENEMY_SPEED * sd),
       rotation := angle)
  }

  /** Math.cos and Math.sin at angle a lie on the unit circle. */
  predicate OnUnitCircle(trig: Trig, a: real)
  {
    trig.cos(a) * trig.cos(a) + trig.sin(a) * trig.sin(a) == 1.0
  }

  /** Where cos and sin behave, an enemy's step is exactly ENEMY_SPEED
      times the scaled delta long. */
  lemma ChaseStride(e: Entity, target: Vec2, sd: real, trig: Trig)
    requires OnUnitCircle(trig, trig.atan2(target.y - e.position.y, target.x - e.position.x))
    ensures var r := Chase(e, target, sd, trig);
      Norm2(Vec2(r.position.x - e.position.x, r.position.y - e.position.y)) == (ENEMY_SPEED * sd) * (ENEMY_SPEED * sd)
  {  }

  /** Every enemy of the frame turns towards the player and steps; nothing
      else about it changes. */
  function ChaseAll(es: seq<Entity>, target: Vec2, sd: real, trig: Trig): (r: seq<Entity>)
    ensures |r| == |es|
    ensures forall i | 0 <= i < |es| :: r[i] == Chase(es[i], target, sd, trig)
    ensures forall i | 0 <= i < |es| ::
      r[i] == es[i].(position := r[i].position, rotation := trig.atan2(target.y - es[i].position.y, target.x - es[i].position.x))
  {
    seq(|es|, i requires 0 <= i < |es| => Chase(es[i], target, sd, trig))
  }

  /** A bullet or particle position after sd scaled milliseconds. */
  function Drift(p: Vec2, v: Vec2, sd: real): Vec2
  {
    Vec2(p.x + v.x * sd, p.y + v.y * sd)
  }

  function DriftAll(bs: seq<Entity>, sd: real): (r: seq<Entity>)
    ensures |r| == |bs|
    ensures forall i | 0 <= i < |bs| :: r[i] == bs[i].(position := Drift(bs[i].position, bs[i].velocity, sd))
  {
    seq(|bs|, i requires 0 <= i < |bs| => bs[i].(position := Drift(bs[i].position, bs[i].velocity, sd)))
  }

  /** Particles move like bullets and lose PARTICLE_FADE life per frame,
      both slowed by the time scale. */
  function FadeAll(ps: seq<Particle>, sd: real, scale: real): (r: seq<Particle>)
    ensures |r| == |ps|
    ensures forall i | 0 <= i < |ps| ::
      r[i] == ps[i].(position := Drift(ps[i].position, ps[i].velocity, sd), life := ps[i].life - PARTICLE_FADE * scale)
  {
    seq(|ps|, i requires 0 <= i < |ps| =>
      ps[i].(position := Drift(ps[i].position, ps[i].velocity, sd), life := ps[i].life - PARTICLE_FADE * scale))
  }

  /** The bullet filter of the frame, as a function value. */
  function InsideOf(arena: Arena): Entity -> bool
  {
    (b: Entity) => InArena(b.position, arena)
  }

  /** The particle filter of the frame, as a function value. */
  predicate Visible(p: Particle)
  {
    p.life > 0.0
  }

  /** One axis of the screen shake: damped, and snapped to zero once small. */
  function SettleAxis(v: real): (r: real)
    ensures Abs(r) <= Abs(v)
    ensures r == 0.0 || Abs(r) >= SHAKE_FLOOR
    ensures Abs(v) < SHAKE_FLOOR ==> r == 0.0
    ensures r != 0.0 ==> r == SHAKE_DAMPING * v
    ensures r == 0.0 <==> Abs(SHAKE_DAMPING * v) < SHAKE_FLOOR
  {
    var d := v * SHAKE_DAMPING;
    if Abs(d) < SHAKE_FLOOR then 0.0 else d
  }

  /** One axis of the shake after n frames without a new jolt. */
  function Decay(v: real, n: nat): real
    decreases n
  {
    if n == 0 then v else Decay(SettleAxis(v), n - 1)
  }

  /** A shake no new jolt feeds dies out: every frame that leaves it non-zero
      takes more than 0.01 off it, so after n frames any shake below n / 100
      is exactly zero. */
  lemma {:induction false} ShakeDiesOut(v: real, n: nat)
    requires Abs(v) < (n as real) / 100.0
    ensures Decay(v, n) == 0.0
    decreases n
  {
    var w := SettleAxis(v);
    if n > 1 {
      if w != 0.0 {
        assert Abs(w) == SHAKE_DAMPING * Abs(v);
        assert Abs(v) > 0.11;
        assert Abs(w) < ((n - 1) as real) / 100.0;
      }
      ShakeDiesOut(w, n - 1);
    } else {
      assert Abs(SHAKE_DAMPING * v) < SHAKE_FLOOR;
    }
  }

  function Settle(shake: Vec2): Vec2
  {
    Vec2(SettleAxis(shake.x), SettleAxis(shake.y))
  }

  /** The intermediate values of one frame, in the order the reducer
      computes them. */
  datatype Stages = Stages(
    scale: real,
    player: Player,
    spawn: Spawn,
    chased: seq<Entity>,
    bullets: seq<Entity>,
    particles: seq<Particle>,
    volley: Combat.Volley,
    crash: Combat.Crash)

  function Stage(s: Session, c: Controls, dt: real, arena: Arena, dice: nat -> real, trig: Trig): Stages
  {
    var g := s.game;
    var scale := TimeScale(g, c);
    var sd := ScaledDelta(g, c, dt);
    var player := MovePlayer(g.player, Steering(c), c.mouse, sd, arena, trig);
    var spawn := SpawnEnemy(g.enemies, s.spawnClock, sd, arena, dice);
    var chased := ChaseAll(spawn.enemies, player.position, sd, trig);
    var bullets := Filter(DriftAll(g.bullets, sd), InsideOf(arena));
    var particles := Filter(FadeAll(g.particles, sd, scale), Visible);
    var volley := Combat.Barrage(bullets, chased, Combat.Fallout(g.score, particles, Settle(g.screenShake), spawn.roll), dice, trig);
    var crash := Combat.Contact(volley.enemies, player.position, g.player.radius, Combat.Crash(false, volley.out.shake, volley.out.roll), dice);
    Stages(scale, player, spawn, chased, bullets, particles, volley, crash)
  }

  /** `updateGame`: nothing happens unless the game is running; otherwise
      the player moves, an enemy may spawn, enemies chase, bullets and
      particles move and expire, collisions are resolved, and destroyed
      entities are dropped. */
  function Tick(s: Session, c: Controls, dt: real, arena: Arena, dice: nat -> real, trig: Trig): (r: Session)
    ensures !Running(s.game) ==> r == s
    ensures Running(s.game) ==>
      && r.highScore == s.highScore
      && r.game == s.game.(player := r.game.player, enemies := r.game.enemies, bullets := r.game.bullets,
                           particles := r.game.particles, screenShake := r.game.screenShake,
                           score := r.game.score, gameOver := r.game.gameOver)
      && r.game.player == s.game.player.(position := r.game.player.position, rotation := r.game.player.rotation)
      && (Roomy(arena) ==> InBounds(r.game.player.position, arena))
  {
    if !Running(s.game) then s
    else
      var g := s.game;
      var st := Stage(s, c, dt, arena, dice, trig);
      Session(
        g.(player := st.player, enemies := Live(st.volley.enemies), bullets := Live(st.volley.bullets),
           particles := st.volley.out.particles, screenShake := st.crash.shake,
           score := st.volley.out.score, gameOver := st.crash.gameOver),
        st.spawn.clock,
        s.highScore)
  }

  /** The scaled time of a frame pushes the spawn accumulator past its
      period. */
  predicate SpawnDue(s: Session, c: Controls, dt: real)
  {
    s.spawnClock + ScaledDelta(s.game, c, dt) > SPAWN_RATE
  }

  /** After a frame no bullet or enemy destroyed during it is left, every
      bullet is strictly inside the arena and every particle is visible. */
  lemma TickTidy(s: Session, c: Controls, dt: real, arena: Arena, dice: nat -> real, trig: Trig)
    requires Running(s.game)
    ensures var r := Tick(s, c, dt, arena, dice, trig);
      && Settled(r.game)
      && (forall i | 0 <= i < |r.game.bullets| :: InArena(r.game.bullets[i].position, arena))
      && Glowing(r.game.particles)
  {
    var g := s.game;
    var st := Stage(s, c, dt, arena, dice, trig);
    var out0 := Combat.Fallout(g.score, st.particles, Settle(g.screenShake), st.spawn.roll);
    TickStages(s, c, dt, arena, dice, trig);
    assert forall i | 0 <= i < |st.volley.bullets| :: InsideOf(arena)(st.volley.bullets[i]) by {
      assert forall i | 0 <= i < |st.bullets| :: InsideOf(arena)(st.bullets[i]);
    }
    FilterAll(st.volley.bullets, IsLive, InsideOf(arena));
    assert Glowing(st.particles) by {
      assert forall i | 0 <= i < |st.particles| :: Visible(st.particles[i]);
    }
    Combat.BarrageAccounting(st.bullets, st.chased, out0, dice, trig);
  }

  /** The game ends on a frame exactly when one of the enemies left after
      the bullets are resolved overlaps the player at its new position. */
  lemma TickGameOver(s: Session, c: Controls, dt: real, arena: Arena, dice: nat -> real, trig: Trig)
    requires Running(s.game)
    ensures var r := Tick(s, c, dt, arena, dice, trig);
      r.game.gameOver <==> exists i | 0 <= i < |r.game.enemies| ::
        Within(r.game.enemies[i].position, r.game.player.position, r.game.enemies[i].radius + r.game.player.radius)
  {
    var r := Tick(s, c, dt, arena, dice, trig);
    var st := Stage(s, c, dt, arena, dice, trig);
    TickStages(s, c, dt, arena, dice, trig);
    Combat.ContactSurvivors(st.volley.enemies, st.player.position, s.game.player.radius);
    assert r.game.player.radius == s.game.player.radius;
    assert forall i | 0 <= i < |r.game.enemies| :: r.game.enemies[i].active;
  }

  /** Score accounting of a frame: the score never drops, and from a
      settled state it rises by exactly KILL_SCORE for every enemy, old or
      just spawned, that is gone afterwards. */
  lemma TickScore(s: Session, c: Controls, dt: real, arena: Arena, dice: nat -> real, trig: Trig)
    requires Running(s.game)
    ensures var r := Tick(s, c, dt, arena, dice, trig);
      && r.game.score >= s.game.score
      && (Settled(s.game) ==>
            r.game.score == s.game.score
              + Combat.KILL_SCORE * (|s.game.enemies| + (if SpawnDue(s, c, dt) then 1 else 0) - |r.game.enemies|))
  {
    var g := s.game;
    var st := Stage(s, c, dt, arena, dice, trig);
    var out0 := Combat.Fallout(g.score, st.particles, Settle(g.screenShake), st.spawn.roll);
    TickStages(s, c, dt, arena, dice, trig);
    Combat.BarrageAccounting(st.bullets, st.chased, out0, dice, trig);
    if Settled(g) {
      assert forall i | 0 <= i < |st.chased| :: IsLive(st.chased[i]);
      assert Live(st.chased) == st.chased;
    }
  }

  /** Screen shake of a frame: unless something was destroyed or something
      reached the player, the shake just settles one step. */
  lemma TickShake(s: Session, c: Controls, dt: real, arena: Arena, dice: nat -> real, trig: Trig)
    requires Running(s.game)
    ensures var r := Tick(s, c, dt, arena, dice, trig);
      r.game.score == s.game.score && !r.game.gameOver ==> r.game.screenShake == Settle(s.game.screenShake)
  {
    var g := s.game;
    var st := Stage(s, c, dt, arena, dice, trig);
    var out0 := Combat.Fallout(g.score, st.particles, Settle(g.screenShake), st.spawn.roll);
    TickStages(s, c, dt, arena, dice, trig);
    Combat.BarrageQuiet(st.bullets, st.chased, out0, dice, trig);
  }

  /** Spawning: the accumulator restarts from zero exactly when it passes
      its period, and a frame adds at most that one enemy. */
  lemma TickSpawn(s: Session, c: Controls, dt: real, arena: Arena, dice: nat -> real, trig: Trig)
    requires Running(s.game)
    ensures var r := Tick(s, c, dt, arena, dice, trig);
      && (SpawnDue(s, c, dt) ==> r.spawnClock == 0.0 && |r.game.enemies| <= |s.game.enemies| + 1)
      && (!SpawnDue(s, c, dt) ==>
            r.spawnClock == s.spawnClock + ScaledDelta(s.game, c, dt) && |r.game.enemies| <= |s.game.enemies|)
  {  }

  /** How a running frame is assembled from its stages. */
  lemma TickStages(s: Session, c: Controls, dt: real, arena: Arena, dice: nat -> real, trig: Trig)
    requires Running(s.game)
    ensures var st := Stage(s, c, dt, arena, dice, trig);
      var r := Tick(s, c, dt, arena, dice, trig);
      && st.spawn == SpawnEnemy(s.game.enemies, s.spawnClock, ScaledDelta(s.game, c, dt), arena, dice)
      && st.volley == Combat.Barrage(st.bullets, st.chased,
           Combat.Fallout(s.game.score, st.particles, Settle(s.game.screenShake), st.spawn.roll), dice, trig)
      && r.spawnClock == st.spawn.clock
      && r.game.enemies == Live(st.volley.enemies)
      && r.game.score == st.volley.out.score
      && st.crash == Combat.Contact(st.volley.enemies, st.player.position, s.game.player.radius,
           Combat.Crash(false, st.volley.out.shake, st.volley.out.roll), dice)
      && r.game.gameOver == st.crash.gameOver
      && r.game.screenShake == st.crash.shake
      && r.game.player == st.player
      && st.bullets == Filter(DriftAll(s.game.bullets, ScaledDelta(s.game, c, dt)), InsideOf(arena))
      && st.particles == Filter(FadeAll(s.game.particles, ScaledDelta(s.game, c, dt), TimeScale(s.game, c)), Visible)
      && r.game.bullets == Live(st.volley.bullets)
      && r.game.particles == st.volley.out.particles
      && st.chased == ChaseAll(st.spawn.enemies, st.player.position, ScaledDelta(s.game, c, dt), trig)
  {
  }

  /** The player of a frame moves by its input for deltaTime times the time
      scale. */
  lemma TickPlayer(s: Session, c: Controls, dt: real, arena: Arena, dice: nat -> real, trig: Trig)
    requires Running(s.game)
    ensures Tick(s, c, dt, arena, dice, trig).game.player
      == MovePlayer(s.game.player, Steering(c), c.mouse, dt * TimeScale(s.game, c), arena, trig)
  {
    TickStages(s, c, dt, arena, dice, trig);
    ScaledDeltaIsProduct(s.game, c, dt);
  }

  /** The particle list `after` of a frame that gained `gained` points,
      from the old particles ps: first the old particles still visible, in
      their order, each moved by sd and with PARTICLE_FADE times the time
      scale less life; then the fresh sparks, BURST_SIZE for every
      KILL_SCORE points. */
  predicate AgedThenSparks(after: seq<Particle>, ps: seq<Particle>, sd: real, scale: real, gained: int)
  {
    exists kept | 0 <= kept <= |after| ::
      && Combat.KILL_SCORE * (|after| - kept) == Combat.BURST_SIZE * gained
      && after[..kept] == Filter(FadeAll(ps, sd, scale), Visible)
      && (forall i | 0 <= i < kept :: exists j | 0 <= j < |ps| ::
            after[i] == ps[j].(position := Drift(ps[j].position, ps[j].velocity, sd),
                               life := ps[j].life - PARTICLE_FADE * scale))
      && (forall j | 0 <= j < |ps| && ps[j].life - PARTICLE_FADE * scale > 0.0 ::
            ps[j].(position := Drift(ps[j].position, ps[j].velocity, sd),
                   life := ps[j].life - PARTICLE_FADE * scale) in after[..kept])
      && (forall i | kept <= i < |after| :: after[i].life == 1.0)
  }

  /** Particles of a frame: the surviving old particles aged by the frame's
      scaled time, then the sparks of its kills. */
  lemma TickParticles(s: Session, c: Controls, dt: real, arena: Arena, dice: nat -> real, trig: Trig)
    requires Running(s.game)
    ensures var r := Tick(s, c, dt, arena, dice, trig);
      AgedThenSparks(r.game.particles, s.game.particles, ScaledDelta(s.game, c, dt), TimeScale(s.game, c),
                     r.game.score - s.game.score)
  {
    var r := Tick(s, c, dt, arena, dice, trig);
    ParticleCount(s, c, dt, arena, dice, trig);
    ParticlePrefix(s, c, dt, arena, dice, trig);
    AgedSurvivors(s.game.particles, ScaledDelta(s.game, c, dt), TimeScale(s.game, c), r.game.particles,
                  r.game.score - s.game.score);
  }

  /** A list that extends the visible faded particles by BURST_SIZE sparks
      per KILL_SCORE points is laid out as AgedThenSparks says. */
  lemma AgedSurvivors(ps: seq<Particle>, sd: real, scale: real, after: seq<Particle>, gained: int)
    requires Combat.Extends(after, Filter(FadeAll(ps, sd, scale), Visible))
    requires Combat.KILL_SCORE * (|after| - |Filter(FadeAll(ps, sd, scale), Visible)|) == Combat.BURST_SIZE * gained
    ensures AgedThenSparks(after, ps, sd, scale, gained)
  {  }

  /** BURST_SIZE sparks arrive with every KILL_SCORE points. */
  lemma ParticleCount(s: Session, c: Controls, dt: real, arena: Arena, dice: nat -> real, trig: Trig)
    requires Running(s.game)
    ensures var r := Tick(s, c, dt, arena, dice, trig);
      var st := Stage(s, c, dt, arena, dice, trig);
      Combat.KILL_SCORE * (|r.game.particles| - |st.particles|) == Combat.BURST_SIZE * (r.game.score - s.game.score)
  {
    var g := s.game;
    var r := Tick(s, c, dt, arena, dice, trig);
    var st := Stage(s, c, dt, arena, dice, trig);
    var out0 := Combat.Fallout(g.score, st.particles, Settle(g.screenShake), st.spawn.roll);
    TickStages(s, c, dt, arena, dice, trig);
    Combat.BarrageAccounting(st.bullets, st.chased, out0, dice, trig);
  }

  /** The bullet pass only appends to the faded particles. */
  lemma ParticlePrefix(s: Session, c: Controls, dt: real, arena: Arena, dice: nat -> real, trig: Trig)
    requires Running(s.game)
    ensures var r := Tick(s, c, dt, arena, dice, trig);
      var st := Stage(s, c, dt, arena, dice, trig);
      && st.particles == Filter(FadeAll(s.game.particles, ScaledDelta(s.game, c, dt), TimeScale(s.game, c)), Visible)
      && Combat.Extends(r.game.particles, st.particles)
  {
    var g := s.game;
    var st := Stage(s, c, dt, arena, dice, trig);
    var out0 := Combat.Fallout(g.score, st.particles, Settle(g.screenShake), st.spawn.roll);
    TickStages(s, c, dt, arena, dice, trig);
    Combat.BarrageKeepsParticles(st.bullets, st.chased, out0, dice, trig);
  }

  /** Bullets of a frame: each one left is an old bullet moved by its
      velocity for deltaTime times the time scale. */
  lemma TickBullets(s: Session, c: Controls, dt: real, arena: Arena, dice: nat -> real, trig: Trig)
    requires Running(s.game)
    ensures var r := Tick(s, c, dt, arena, dice, trig);
      var bs := s.game.bullets;
      forall i | 0 <= i < |r.game.bullets| :: exists j | 0 <= j < |bs| ::
        r.game.bullets[i] == bs[j].(position := Drift(bs[j].position, bs[j].velocity, dt * TimeScale(s.game, c)))
  {
    var g := s.game;
    var st := Stage(s, c, dt, arena, dice, trig);
    var out0 := Combat.Fallout(g.score, st.particles, Settle(g.screenShake), st.spawn.roll);
    TickStages(s, c, dt, arena, dice, trig);
    Combat.BarrageKeepsLive(st.bullets, st.chased, out0, dice, trig);
    DriftedSurvivors(g.bullets, ScaledDelta(g, c, dt), arena, st.volley.bullets);
    ScaledDeltaIsProduct(g, c, dt);
  }

  /** Bullets that are still live after the bullet pass are unchanged
      copies of the drifted bullets that stayed inside the arena, so each is
      an input bullet moved by its velocity for sd. */
  lemma DriftedSurvivors(bs: seq<Entity>, sd: real, arena: Arena, after: seq<Entity>)
    requires |after| == |Filter(DriftAll(bs, sd), InsideOf(arena))|
    requires forall k | 0 <= k < |after| :: after[k].active ==> after[k] == Filter(DriftAll(bs, sd), InsideOf(arena))[k]
    ensures forall i | 0 <= i < |Live(after)| :: exists j | 0 <= j < |bs| ::
      Live(after)[i] == bs[j].(position := Drift(bs[j].position, bs[j].velocity, sd))
  {
    var moved := DriftAll(bs, sd);
    var kept := Filter(moved, InsideOf(arena));
    forall i | 0 <= i < |Live(after)|
      ensures exists j | 0 <= j < |bs| :: Live(after)[i] == bs[j].(position := Drift(bs[j].position, bs[j].velocity, sd))
    {
      var b := Live(after)[i];
      assert b in after && b.active;
      var k :| 0 <= k < |after| && after[k] == b;
      assert b == kept[k];
      assert b in moved;
      var j :| 0 <= j < |moved| && moved[j] == b;
    }
  }

  /** Enemies of a frame: each one left is an enemy of the frame, old or
      just spawned, that took one chase step toward the player's new
      position over the scaled delta, which ScaledDeltaIsProduct equates
      with deltaTime times the time scale. Idle frames therefore slow the
      enemies down exactly as they slow the player. */
  lemma TickEnemies(s: Session, c: Controls, dt: real, arena: Arena, dice: nat -> real, trig: Trig)
    requires Running(s.game)
    ensures var r := Tick(s, c, dt, arena, dice, trig);
      var sd := ScaledDelta(s.game, c, dt);
      var born := SpawnEnemy(s.game.enemies, s.spawnClock, sd, arena, dice).enemies;
      forall e | e in r.game.enemies :: exists j | 0 <= j < |born| ::
        e == Chase(born[j], r.game.player.position, sd, trig)
  {
    var g := s.game;
    var st := Stage(s, c, dt, arena, dice, trig);
    var out0 := Combat.Fallout(g.score, st.particles, Settle(g.screenShake), st.spawn.roll);
    TickStages(s, c, dt, arena, dice, trig);
    Combat.BarrageKeepsLiveEnemies(st.bullets, st.chased, out0, dice, trig);
    ChasedSurvivors(st.spawn.enemies, st.player.position, ScaledDelta(g, c, dt), trig, st.volley.enemies);
  }

  /** Enemies that are still live after the bullet pass are unchanged
      copies of the chased ones, so each is an input enemy after one chase
      step. */
  lemma ChasedSurvivors(es: seq<Entity>, target: Vec2, sd: real, trig: Trig, after: seq<Entity>)
    requires |after| == |es|
    requires forall k | 0 <= k < |after| :: after[k].active ==> after[k] == ChaseAll(es, target, sd, trig)[k]
    ensures forall e | e in Live(after) :: exists j | 0 <= j < |es| :: e == Chase(es[j], target, sd, trig)
  {
    var chased := ChaseAll(es, target, sd, trig);
    forall e | e in Live(after)
      ensures exists j | 0 <= j < |es| :: e == Chase(es[j], target, sd, trig)
    {
      var k :| 0 <= k < |after| && after[k] == e;
      assert e == chased[k] == Chase(es[k], target, sd, trig);
    }
  }

  /** `handleShoot`: ignored unless the game runs and FIRE_RATE ms have
      passed since the last shot; otherwise one live bullet leaves the
      player's position along its heading and the shot time is recorded. */
  function Shoot(g: GameState, now: int, dice: nat -> real, trig: Trig): (r: GameState)
    ensures !Running(g) || now - g.player.lastShotTime < FIRE_RATE ==> r == g
    ensures Running(g) && now - g.player.lastShotTime >= FIRE_RATE ==>
      && |r.bullets| == |g.bullets| + 1
      && r.bullets[..|g.bullets|] == g.bullets
      && r.bullets[|g.bullets|].kind == Bullet
      && r.bullets[|g.bullets|].active
      && r.bullets[|g.bullets|].position == g.player.position
      && r.bullets[|g.bullets|].rotation == g.player.rotation
      && r.bullets[|g.bullets|].velocity ==
           Vec2(trig.cos(g.player.rotation) * BULLET_SPEED, trig.sin(g.player.rotation) * BULLET_SPEED)
      && r.bullets[|g.bullets|].radius == BULLET_RADIUS
      && r.player == g.player.(lastShotTime := now)
      && r == g.(player := r.player, bullets := r.bullets, screenShake := r.screenShake)
  {
    if !Running(g) || now - g.player.lastShotTime < FIRE_RATE then g
    else
      var angle := g.player.rotation;
      var bullet := Entity(Bullet, g.player.position,
                           Vec2(trig.cos(angle) * BULLET_SPEED, trig.sin(angle) * BULLET_SPEED),
                           angle, BULLET_RADIUS, true, 1);
      g.(player := g.player.(lastShotTime := now),
         bullets := g.bullets + [bullet],
         screenShake := Combat.Jolt(dice, 0, SHOT_SHAKE))
  }

  /** Where cos and sin behave, a fired bullet moves at exactly
      BULLET_SPEED per millisecond, whatever the player's heading. */
  lemma ShotSpeed(g: GameState, now: int, dice: nat -> real, trig: Trig)
    requires Running(g) && now - g.player.lastShotTime >= FIRE_RATE
    requires OnUnitCircle(trig, g.player.rotation)
    ensures var r := Shoot(g, now, dice, trig);
      Norm2(r.bullets[|g.bullets|].velocity) == BULLET_SPEED * BULLET_SPEED
  {  }

  /** Two shot requests less than FIRE_RATE ms apart fire at most one
      bullet between them, and neither touches enemies or score. */
  lemma FireRateGate(g: GameState, t1: int, t2: int, d1: nat -> real, d2: nat -> real, trig: Trig)
    requires t2 - t1 < FIRE_RATE
    ensures var r := Shoot(Shoot(g, t1, d1, trig), t2, d2, trig);
      && |g.bullets| <= |r.bullets| <= |g.bullets| + 1
      && r.enemies == g.enemies && r.score == g.score && r.gameOver == g.gameOver
  {  }

  /** `startGame`: only the started flag changes, so a game that is over
      stays over. */
  function Start(g: GameState): (r: GameState)
    ensures r.gameStarted
    ensures r.(gameStarted := g.gameStarted) == g
    ensures Running(r) <==> !g.gameOver
  {
    g.(gameStarted := true)
  }

  /** `restartGame`: INITIAL_STATE, started, with the player in the middle
      of the arena. */
  function Restart(arena: Arena): (r: GameState)
    ensures Pristine(r) && Settled(r) && Running(r)
    ensures r.player.position == Vec2(arena.width / 2.0, arena.height / 2.0)
    ensures Roomy(arena) ==> InBounds(r.player.position, arena)
    ensures r.highScore == 0 && !r.isMoving
  {
    var init := Initial();
    init.(gameStarted := true, player := init.player.(position := Vec2(arena.width / 2.0, arena.height / 2.0)))
  }

  /** The high-score effect: the best score seen so far. */
  function RecordHighScore(best: int, score: int): (r: int)
    ensures r >= best && r >= score
    ensures r == best || r == score
  {
    if score > best then score else best
  }

  /** The things that can happen to the App: an animation frame, a shot
      request at Date.now(), the start button and the restart button. */
  datatype Event =
    | Frame(controls: Controls, dt: real, frameDice: nat -> real)
    | Fire(now: int, shotDice: nat -> real)
    | Begin
    | Again

  /** One event followed by the high-score effect. The spawn accumulator
      and the high score belong to the App, not to the game state, so a
      restart keeps both. */
  function Apply(s: Session, ev: Event, arena: Arena, trig: Trig): (r: Session)
    ensures r.highScore >= s.highScore && r.highScore >= r.game.score
    ensures ev.Again? ==> r.game == Restart(arena) && r.spawnClock == s.spawnClock
    ensures !ev.Frame? ==> r.spawnClock == s.spawnClock
  {
    var next :=
      match ev
      case Frame(c, dt, dice) => Tick(s, c, dt, arena, dice, trig)
      case Fire(now, dice) => s.(game := Shoot(s.game, now, dice, trig))
      case Begin => s.(game := Start(s.game))
      case Again => s.(game := Restart(arena));
    next.(highScore := RecordHighScore(next.highScore, next.game.score))
  }

  /** A sequence of events applied in order. */
  function Replay(s: Session, evs: seq<Event>, arena: Arena, trig: Trig): Session
    decreases |evs|
  {
    if |evs| == 0 then s else Replay(Apply(s, evs[0], arena, trig), evs[1..], arena, trig)
  }

  datatype Phase = NotStarted | Playing | Over

  function PhaseOf(g: GameState): Phase
  {
    if g.gameOver then Over else if g.gameStarted then Playing else NotStarted
  }

  /** The App's state machine NotStarted -> Playing -> Over: only a frame
      ends a game, only a restart leaves Over, and a shot never changes the
      phase. */
  lemma PhaseMachine(s: Session, ev: Event, arena: Arena, trig: Trig)
    ensures var p := PhaseOf(s.game);
      var q := PhaseOf(Apply(s, ev, arena, trig).game);
      && (ev.Again? ==> q == Playing)
      && (ev.Begin? ==> q == (if p == Over then Over else Playing))
      && (ev.Fire? ==> q == p)
      && (ev.Frame? ==> (p == NotStarted ==> q == NotStarted) && (p == Playing ==> q != NotStarted))
      && (p == Over && !ev.Again? ==> q == Over)
  {  }

  /** Once a started game is over, nothing but a restart changes anything. */
  lemma {:induction false} FrozenWhenOver(s: Session, evs: seq<Event>, arena: Arena, trig: Trig)
    requires s.game.gameStarted && s.game.gameOver
    requires s.highScore >= s.game.score
    requires forall i | 0 <= i < |evs| :: !evs[i].Again?
    ensures Replay(s, evs, arena, trig) == s
    decreases |evs|
  {
    if |evs| > 0 {
      assert Apply(s, evs[0], arena, trig) == s;
      FrozenWhenOver(s, evs[1..], arena, trig);
    }
  }

  /** Without a restart the score never decreases, and the high score
      always covers the score and never decreases. */
  lemma {:induction false} ScoreMonotone(s: Session, evs: seq<Event>, arena: Arena, trig: Trig)
    requires s.highScore >= s.game.score
    ensures var r := Replay(s, evs, arena, trig);
      && r.highScore >= s.highScore && r.highScore >= r.game.score
      && ((forall i | 0 <= i < |evs| :: !evs[i].Again?) ==> r.game.score >= s.game.score)
    decreases |evs|
  {
    if |evs| > 0 {
      var s1 := Apply(s, evs[0], arena, trig);
      match evs[0] {
        case Frame(c, dt, dice) =>
          if Running(s.game) {
            TickScore(s, c, dt, arena, dice, trig);
          }
        case Fire(now, dice) =>
        case Begin =>
        case Again =>
      }
      ScoreMonotone(s1, evs[1..], arena, trig);
      assert forall i | 0 <= i < |evs[1..]| :: evs[1..][i] == evs[i + 1];
    }
  }

  /** Every event keeps the state settled: no destroyed enemy or bullet is
      ever carried from one event to the next. */
  lemma {:induction false} AlwaysSettled(s: Session, evs: seq<Event>, arena: Arena, trig: Trig)
    requires Settled(s.game)
    ensures Settled(Replay(s, evs, arena, trig).game)
    decreases |evs|
  {
    if |evs| > 0 {
      match evs[0] {
        case Frame(c, dt, dice) =>
          if Running(s.game) {
            TickTidy(s, c, dt, arena, dice, trig);
          }
        case Fire(now, dice) =>
        case Begin =>
        case Again =>
      }
      AlwaysSettled(Apply(s, evs[0], arena, trig), evs[1..], arena, trig);
    }
  }

  /** In an arena wide enough for the margin, a player that starts inside
      the bounds stays inside them whatever happens. */
  lemma {:induction false} AlwaysInBounds(s: Session, evs: seq<Event>, arena: Arena, trig: Trig)
    requires Roomy(arena) && InBounds(s.game.player.position, arena)
    ensures InBounds(Replay(s, evs, arena, trig).game.player.position, arena)
    decreases |evs|
  {
    if |evs| > 0 {
      AlwaysInBounds(Apply(s, evs[0], arena, trig), evs[1..], arena, trig);
    }
  }
}
